=== FILE: README.md ===
# MOM-Generator core in Dafny

MOM-Generator turns a meeting-invitation e-mail into minutes of meeting. It
reads the meeting date and the numbered agenda out of the e-mail text
(`extract_meeting_details`). Then it fills a Word template (`generate_doc`,
with `replace_header_text` for the section headers):

- the date replaces the `<<MEETING_DATE>>` placeholders in the body and in
  each section's primary header;
- the date replaces `<<MEETING_DATE_u>>` placeholders, underlined;
- the agenda items replace the first `<<AGENDA>>` paragraph as bold
  paragraphs;
- the result is saved under a name built from the date.

This project models that core, `main.py`, and proves what it promises.

- `Wrappers.dfy`: `Option`.
- `TextOps.dfy`: the Python string operations the core calls, as functions
  with their facts. These are `in`, `str.replace`, `str.split()` on
  whitespace, `" ".join`, `strip()`, and the character classes `[A-Za-z]`,
  `\d` and `str.isspace`. It also holds three building blocks: `IndexFrom`
  is the scan `re.search` makes for the literal `1.`, `Split(s, sep)` is
  the reference definition `replace` is proved against
  (`ReplaceJoinsSplit`), and `TrimStart`/`TrimEnd` are the two halves of
  `strip`.
- `Pieces.dfy`: a regular expression made of literals and bounded character
  runs, matched at one position. It is proved sound and complete against
  rendering the captures back into the text.
- `MeetingDate.dfy`: the date half of `extract_meeting_details`. It covers
  the `scheduled on ...` search, dropping the weekday,
  `strptime("%B %d, %Y")` with leap years, `strftime`, and both fallbacks.
- `Agenda.dfy`: the agenda half. It covers the lazy DOTALL block search up
  to the first blank line, `strip`, and `re.findall(r"\d+\..*")` as a
  left-to-right scan of non-overlapping leftmost matches.
- `Extraction.dfy`: `extract_meeting_details` as a whole.
- `TemplateFiller.dfy`: a `Document` class holding the body paragraphs and
  the paragraphs of each section's primary header. Its methods update them
  in place the way the loops of `generate_doc` and `replace_header_text`
  do. Each method is proved against a specification function:
  `SubstituteAll` and `SubstituteHeaders` apply `Substituted` paragraph by
  paragraph, and `SubstitutedSpec` states what each application does;
  `WithAgenda` is characterised by `WithAgendaInserts` and
  `WithAgendaWithoutPlaceholder`.

## Behaviour worth knowing

The model does what `main.py` does, including these consequences of the
code:

- The agenda block starts at the first literal `1.` anywhere in the text,
  even inside `11.` or `v1.2`, and not only at the start of a line.
- The item regex `\d+\..*` also matches inside a line: `Room 21. B`
  yields the item `21. B`.
- `strptime`'s `%B` compares month names ignoring case, so
  `NOVEMBER 1, 2023` normalises to `November 01, 2023`.
- Only the first `<<AGENDA>>` paragraph is replaced; later paragraphs that
  contain `<<AGENDA>>` stay as they were (`WithAgendaInserts`).
- Text posted from a web form has CRLF line endings, so it never holds
  `\n\n`. The agenda block then runs to the end of the text, and every
  item but possibly the last ends in `\r` (`.` stops only at `\n`). The
  model takes the text as given and shows the same behaviour.
- The comment at main.py:88 says the items are inserted in reverse, but the
  loop runs forward and inserts each item just before the placeholder, so
  the items keep their order. The model inserts forward and proves the
  order.

## Model

| member | source | states |
|---|---|---|
| Pieces.MatchPiecesSound | main.py:20 | when the pattern scan succeeds at `i`, every capture has the shape its group demands and the pattern rendered with the captures stands in the text at `i` |
| Pieces.MatchPiecesComplete | main.py:20 | conversely, any captures of the right shapes whose rendering stands in the text at `i` are exactly what the scan returns (greedy runs cannot overshoot because literals separate them) |
| Pieces.MatchPieces | main.py:20 | the regex engine for a pattern of literals and bounded runs, tried at one position; what it accepts and captures is stated by `MatchPiecesSound` and `MatchPiecesComplete` |
| MeetingDate.MatchAtSound | main.py:20 | a date match at `i` is well formed (letters, letters, 1-2 digits, 4 digits) and the text `scheduled on W, M D, YYYY` stands at `i` |
| MeetingDate.MatchAtComplete | main.py:20 | every well-formed `scheduled on W, M D, YYYY` standing at `i` is the match found at `i` |
| MeetingDate.MatchAt | main.py:20 | the date regex tried at one position; what it accepts and captures is stated by `MatchAtSound` and `MatchAtComplete` |
| MeetingDate.FirstMatchFrom | main.py:20-22 | `re.search` takes the leftmost position where the date regex matches; no position before it matches, and none matches when it finds nothing |
| MeetingDate.FirstMatchIs | main.py:20-22 | a match at `p` with no match before it is the one the search returns |
| MeetingDate.MonthKeysAreLower | main.py:26 | each lower-case name `strptime` compares a month word against is the English month name lowered |
| MeetingDate.MonthNumberOfName | main.py:26-27 | the name `%B` prints for month `k` is read back by `%B` as month `k` |
| MeetingDate.MonthNumber | main.py:26 | the month number is the one whose full English name equals the word ignoring ASCII case, and there is none when no name does |
| MeetingDate.FixedDigitsValue | main.py:27 | the zero-padded day printed by `%d` reads back as the day |
| MeetingDate.FixedDigitsOfValue | main.py:27 | printing a digit string's value in its own width gives the digit string back, so `%Y` reprints the matched four year digits |
| MeetingDate.FixedDigits | main.py:27 | `%d` and `%Y`: the value printed zero-padded in a fixed width; see `FixedDigitsValue` and `FixedDigitsOfValue` |
| MeetingDate.FormatDate | main.py:27 | `strftime("%B %d, %Y")`: full month name, two-digit day, four-digit year; parsing it gives the date back (see `FormatDateRoundTrip`) |
| MeetingDate.FormatDateRoundTrip | main.py:26-27 | `strptime` with the format reads back what `strftime` prints with it: every date `datetime` accepts comes back unchanged |
| MeetingDate.DropFirstWordOfMatch | main.py:25 | `" ".join(raw.split()[1:])` on a match is the text from the month on: the weekday and its comma are dropped |
| MeetingDate.DropFirstWord | main.py:25 | `" ".join(raw.split()[1:])`: the words after the first, joined with single spaces; on a match see `DropFirstWordOfMatch` |
| MeetingDate.ParseCleanDate | main.py:26 | `strptime` on the cleaned match fails on an unknown month name and on a date that does not exist, and otherwise yields that month, the day's value and the year's value |
| MeetingDate.ValidDate | main.py:26 | the dates `datetime` accepts: year 1 to 9999, month 1 to 12, and a day within the month, leap years included; `ParseCleanDate` states that parsing fails exactly outside it |
| MeetingDate.ParseMonthDayYear | main.py:26 | `strptime(s, "%B %d, %Y")`, `None` where it raises; see `ParseCleanDate` and `FormatDateRoundTrip` |
| MeetingDate.NormalizeMatch | main.py:23-29 | the `try` block succeeds exactly when the month name is known and the day exists in that month and year (leap years included, year at least 1); then the result is the canonical month name, the day as two digits of the same value, and the matched year, without the weekday |
| MeetingDate.Normalize | main.py:23-29 | the `try` block, `None` where it raises; see `NormalizeMatch` |
| MeetingDate.UnknownDateIff | main.py:20-31 | the date is "Unknown Date" exactly when the date regex matches nowhere; a found date or raw fallback can never equal the sentinel |
| MeetingDate.ExtractDateOfFirstMatch | main.py:20-29 | with a first match, the date is the normalised date when parsing succeeds and the raw capture, weekday included, when it fails |
| MeetingDate.FirstMatchOnly | main.py:20-22 | once the text has a date phrase, anything appended after it never changes the date |
| MeetingDate.ExtractDate | main.py:20-31 | the date half of the result; see `UnknownDateIff`, `ExtractDateOfFirstMatch` and `FirstMatchOnly` |
| Agenda.BlockEnd | main.py:34 | the lazy `.*?` stops at the first blank line at or after the given position, or at the end of the text |
| Agenda.AgendaBlock | main.py:34 | group 1 of the block search: from the first `1.` to the first blank line after it or the end of the text, none without a `1.`; see `BlockEnd` and `BlockHasNoBlankLine` |
| Agenda.ItemEndIff | main.py:38 | the greedy digit-run scan finds an item at a position exactly when `\d+\.` can match there |
| Agenda.ItemEndIsItem | main.py:38 | what the scan takes is a whole item (digits, full stop, no line feed) running to the end of its line |
| Agenda.ItemEnd | main.py:38 | `\d+\..*` tried at one position; see `ItemEndIff` and `ItemEndIsItem` |
| Agenda.ItemSpans | main.py:38 | the positions of the `re.findall` matches, each inside the text at or after the scan start; see `ItemSpansLeftmost` |
| Agenda.ItemSpansLeftmost | main.py:38 | each match `re.findall` reports is a match of the item regex, and no match starts between it and the previous one or after the last one |
| Agenda.FindItemsInOrder | main.py:38 | the returned items are whole items without line feeds, each stands in the text at its match, runs to a line end, and they appear in order without overlapping |
| Agenda.FindItemsEmptyIff | main.py:38 | `re.findall` returns nothing exactly when the item regex matches nowhere |
| Agenda.FindItems | main.py:38 | `re.findall(r"\d+\..*", s)`; see `FindItemsInOrder` and `FindItemsEmptyIff` |
| Agenda.BlockHasNoBlankLine | main.py:34 | the block the search captures contains no blank line |
| Agenda.AgendaTextOfBlock | main.py:35 | `strip` of the block only removes trailing whitespace and keeps its leading `1.` |
| Agenda.AgendaText | main.py:35 | the stripped block, or `""` without one; see `AgendaTextOfBlock`, `AgendaTextAt` and `AgendaTextNoBlankLine` |
| Agenda.NoAgendaStart | main.py:34-38 | without a literal `1.` the agenda text is empty and so is the agenda |
| Agenda.AgendaStartGivesItem | main.py:34-38 | with a literal `1.` the agenda is not empty and its first item starts with `1.` |
| Agenda.AgendaItemsEmptyIff | main.py:34-38 | the agenda is empty exactly when the text has no literal `1.` |
| Agenda.AgendaTextAt | main.py:34-35 | the stripped block stands in the text at the first `1.` and ends before the blank line that closes the block |
| Agenda.AgendaTextNoBlankLine | main.py:34-35 | the stripped block contains no blank line |
| Agenda.AgendaItemsWithinBlock | main.py:34-38 | every item stands in the text between the first `1.` and the first blank line after it, so nothing after that blank line is returned |
| Agenda.AgendaItems | main.py:34-38 | the agenda half of the result; see `AgendaItemsEmptyIff`, `AgendaStartGivesItem` and `AgendaItemsWithinBlock` |
| Extraction.ExtractMeetingDetails | main.py:18-40 | extraction never fails; the date is "Unknown Date" exactly when no date phrase matches, and the agenda is empty exactly when the text has no literal `1.` |
| TextOps.Replace | main.py:49-77 | `str.replace`, used on header paragraphs (line 49) and in both body date passes (lines 70 and 77); see `ReplaceJoinsSplit` |
| TextOps.ReplaceJoinsSplit | main.py:70 | replacing every occurrence of a non-empty pattern is splitting the text at the pattern and joining the pieces with the replacement |
| TemplateFiller.Substituted | main.py:68-80 | one paragraph of a date pass; see `SubstitutedSpec` |
| TemplateFiller.SubstituteAll | main.py:68-80 | every body paragraph substituted, in place and in order; `Document.ReplaceBodyText` keeps to it |
| TemplateFiller.SubstituteHeaders | main.py:44-49 | every paragraph of every section's primary header substituted with a plain run; `Document.ReplaceHeaderText` keeps to it |
| TemplateFiller.SubstitutedSpec | main.py:68-80 | a paragraph containing the placeholder ends with a single run carrying exactly the requested underline and no bold; its text is the old text's placeholder-free pieces joined with the date, and those pieces joined with the placeholder give the old text back; any other paragraph is unchanged |
| TemplateFiller.Text | main.py:47-87 | `paragraph.text`: the concatenated text of the runs, read at lines 47, 69, 76 and 87; on the single run the date passes leave it is that run's text (see `SubstitutedSpec`) |
| TemplateFiller.FirstContaining | main.py:86-87 | the agenda loop stops at the first paragraph whose text contains the placeholder; none before it does, and none at all when it finds nothing |
| TemplateFiller.WithAgendaInserts | main.py:86-95 | the first `<<AGENDA>>` paragraph gives way to exactly one paragraph per item, each a single bold, non-underlined run whose text is that item, in the items' order; taking them out leaves all other paragraphs, later placeholders included, in their order |
| TemplateFiller.AgendaParagraph | main.py:89-91 | the paragraph `insert_paragraph_before("")` plus a bold `add_run(agenda)` makes; see `WithAgendaInserts` |
| TemplateFiller.AgendaParagraphs | main.py:88-91 | one such paragraph per item, in the items' order; see `WithAgendaInserts` |
| TemplateFiller.WithAgendaWithoutPlaceholder | main.py:86-95 | without an `<<AGENDA>>` paragraph the body is unchanged |
| TemplateFiller.WithAgenda | main.py:86-95 | the agenda step on the body; see `WithAgendaInserts` and `WithAgendaWithoutPlaceholder` |
| TemplateFiller.OutputName | main.py:97 | the output file name; see `OutputNameRoundTrip` and `OutputNameOfDate` |
| TemplateFiller.OutputNameRoundTrip | main.py:97 | the date can be read back from the output file name |
| TemplateFiller.OutputNameOfDate | main.py:97 | every name of the output form is the output name of the date read back from it |
| TemplateFiller.Document.ReplaceBodyText | main.py:68-80 | one body date pass: every body paragraph becomes its substitution (`SubstituteAll`) and the headers are untouched |
| TemplateFiller.Document.ReplaceHeaderText | main.py:44-49 | every paragraph of every section's primary header becomes its plain substitution (`SubstituteHeaders`) and the body is untouched |
| TemplateFiller.Document.ReplaceWithItems | main.py:88-94 | inserting the bold item paragraphs one by one before paragraph `i` and then removing it leaves the items in order where paragraph `i` was |
| TemplateFiller.Document.InsertAgenda | main.py:86-95 | the body becomes `WithAgenda` of the old body and the headers are untouched |
| TemplateFiller.Document.Generate | main.py:64-99 | the body gets the plain date pass, then the underlined pass, then the agenda step; the headers get only the plain date pass; the returned path is the output name of the date |

## Left out

- The Flask application, the `index` route, `render_template`, `send_file`
  and `app.run` (main.py:10, 103-116): HTTP and UI plumbing.
- Loading the template with `Document(...)` and `doc.save(...)` (main.py:65,
  98): file I/O. A `Document` is built from its paragraphs with its
  constructor, and `Generate` returns the path without writing a file.
- `insert_paragraph_after_paragraph` (main.py:53-59): it is never called,
  and it works on python-docx XML internals.
- python-docx beyond text runs: styles, character formatting other than
  bold and underline, tables (which `doc.paragraphs` does not visit),
  hyperlinks, footers. A new run's "no direct formatting" (`None`) is
  modelled as `false`.
- TemplateFiller.Document.ReplaceHeaderText: only each section's primary
  header is visited, because `section.header` (main.py:46) is the default
  header. A `<<MEETING_DATE>>` in a first-page or even-page header stays in
  the output. Reading `header.paragraphs` on a first section that has no
  header also adds an empty header definition to the saved file; the model
  does not record that.
- TemplateFiller.WithAgendaInserts: a run's text is stored exactly as given.
  python-docx stores `\r` and `\n` in `add_run` text as line breaks, which
  `paragraph.text` reads back as `\n`, and `\t` as a tab. It raises
  `ValueError` on characters XML cannot hold, such as `\x0b` or `\x0c`, and
  then `generate_doc` raises. Agenda items from `.*` keep such characters,
  so an item ending in `\r` is stored with a trailing line break. The same
  holds for `add_run(replaced_text)` at main.py:72 and 79, so
  `Document.Generate` is total only on text without such characters.
- Linked headers: the model keeps one entry per section, and a section
  whose header is linked to the previous one is treated as an independent
  copy. In python-docx such sections share one header definition, so the
  loop visits the same paragraphs again; that sharing is not modelled.
- `\d` is modelled as the ASCII digits. Python's `re` on `str` also
  accepts other Unicode decimal digits.
- `re.IGNORECASE` inside `strptime` also matches some non-ASCII letters
  against ASCII ones, such as U+017F, U+212A and U+0131 (dotless i, equal
  to `i` in a name like "June" or "April"). The model folds ASCII letters
  only. The month word comes from `[A-Za-z]+`, so
  those characters never reach the parser.
- `%B` is fixed to the English month names. Locale-dependent names are not
  modelled.
- MeetingDate.FormatDate: `%Y` is printed as four zero-padded digits. glibc's
  `strftime` prints years below 1000 without padding, which the model does
  not reproduce.
- Temporary files and their cleanup: the code writes to a fixed name derived
  from the date, which `OutputName` models.

=== FILE: Agenda.dfy ===
/** The agenda half of `extract_meeting_details` (main.py:33-38): the block
    `re.search(r"(1\..*?)(?:\n\n|\Z)", text, re.DOTALL)` finds, stripped,
    and the items `re.findall(r"\d+\..*", block)` picks out of it. */
module Agenda {
  import opened Wrappers
  import opened TextOps

  /** The literal the agenda block starts with. */
  const AgendaStart := "1."

  /** The separator that ends the agenda block. */
  const BlankLine := "\n\n"

  // ---------------------------------------------------------------------
  // The agenda block

  /** Where the lazy `.*?` stops: the first blank line at or after `i`, or
      the end of `s` (`\Z`). */
  function BlockEnd(s: string, i: nat): (q: nat)
    requires i <= |s|
    ensures i <= q <= |s|
    ensures q < |s| ==> OccursAt(s, BlankLine, q)
    ensures forall j :: i <= j < q ==> !OccursAt(s, BlankLine, j)
    decreases |s| - i
  {
    if i == |s| || OccursAt(s, BlankLine, i) then i else BlockEnd(s, i + 1)
  }

  /** `group(1)` of the agenda search, if it matches. With `re.DOTALL` the
      lazy part can always reach `\Z`, so the search matches exactly when
      "1." occurs, and its leftmost match starts at the first "1.". */
  function AgendaBlock(text: string): Option<string> {
    match IndexFrom(text, AgendaStart, 0)
    case None => None
    case Some(p) => Some(text[p..BlockEnd(text, p + 2)])
  }

  /** `agenda_text` of main.py:35. */
  function AgendaText(text: string): string {
    match AgendaBlock(text)
    case None => ""
    case Some(b) => Strip(b)
  }

  // ---------------------------------------------------------------------
  // The item regex `\d+\..*`

  /** Where `.*` stops: the next line feed at or after `i`, or the end. */
  function LineEnd(s: string, i: nat): (j: nat)
    requires i <= |s|
    ensures i <= j <= |s|
    ensures j < |s| ==> s[j] == '\n'
    ensures forall k :: i <= k < j ==> s[k] != '\n'
    decreases |s| - i
  {
    if i == |s| || s[i] == '\n' then i else LineEnd(s, i + 1)
  }

  /** The regex `\d+\.` can match at `i`: some digits, then a full stop
      at `j`. */
  predicate ItemStartsAt(s: string, i: nat) {
    exists j :: i < j < |s| && AllDigits(s[i..j]) && s[j] == '.'
  }

  /** A whole agenda item: a match of `\d+\.` at its start and no line feed. */
  predicate IsItem(t: string) {
    ItemStartsAt(t, 0) && forall k :: 0 <= k < |t| ==> t[k] != '\n'
  }

  /** The end of the match of `\d+\..*` at `i`, if there is one: the whole
      digit run (a shorter one would leave a digit where the full stop must
      be), the full stop, and everything up to the end of the line. */
  function ItemEnd(s: string, i: nat): (r: Option<nat>)
    requires i <= |s|
    ensures r.Some? ==> i + 2 <= r.value <= |s|
  {
    var n := DigitRun(s, i);
    if n == 0 || i + n == |s| || s[i + n] != '.' then None
    else Some(LineEnd(s, i + n + 1))
  }

  /** The greedy scan agrees with the regex: it finds a match exactly where
      one exists. */
  lemma ItemEndIff(s: string, i: nat)
    requires i <= |s|
    ensures ItemEnd(s, i).Some? <==> ItemStartsAt(s, i)
  {
    var d := DigitRun(s, i);
    if ItemEnd(s, i).Some? {
      assert AllDigits(s[i..i + d]);
    }
    if ItemStartsAt(s, i) {
      var j :| i < j < |s| && AllDigits(s[i..j]) && s[j] == '.';
      var n := j - i;
      assert forall k :: i <= k < i + n ==> IsDigit(s[k]) by {
        forall k | i <= k < i + n ensures IsDigit(s[k]) {
          assert s[k] == s[i..i + n][k - i];
        }
      }
      DigitRunIs(s, i, n);
    }
  }

  /** What the scan matches is a whole item that runs to the end of its line. */
  lemma ItemEndIsItem(s: string, i: nat)
    requires i <= |s| && ItemEnd(s, i).Some?
    ensures IsItem(s[i..ItemEnd(s, i).value])
    ensures ItemEnd(s, i).value == |s| || s[ItemEnd(s, i).value] == '\n'
  {
    var e := ItemEnd(s, i).value;
    var n := DigitRun(s, i);
    var t := s[i..e];
    assert t[0..n] == s[i..i + n];
    assert AllDigits(t[0..n]);
    assert t[n] == '.';
    assert forall k :: 0 <= k < |t| ==> t[k] == s[i + k];
  }

  // ---------------------------------------------------------------------
  // `re.findall`

  /** The bounds of one match in the scanned text. */
  datatype Span = Span(start: nat, end: nat)

  /** Where the search for the `k`-th match began: the scan start, or the
      end of the previous match. */
  function GapStart(i: nat, r: seq<Span>, k: nat): nat
    requires k <= |r|
  {
    if k == 0 then i else r[k - 1].end
  }

  /** Where that search succeeded: the `k`-th match, or the end of the text. */
  function GapEnd(s: string, r: seq<Span>, k: nat): nat
    requires k <= |r|
  {
    if k == |r| then |s| else r[k].start
  }

  /** The matches `re.findall` finds scanning from `i`: each search starts
      where the previous match ended and the scan ends when no match is left
      (a match is never empty, so the scan never has to step past one). */
  function ItemSpans(s: string, i: nat): (r: seq<Span>)
    requires i <= |s|
    ensures forall k :: 0 <= k < |r| ==> i <= r[k].start < r[k].end <= |s|
    decreases |s| - i
  {
    if i == |s| then []
    else
      match ItemEnd(s, i)
      case Some(e) => [Span(i, e)] + ItemSpans(s, e)
      case None => ItemSpans(s, i + 1)
  }

  /** `sp` is a match of the item regex starting at or after `lo`. */
  predicate MatchAfter(s: string, lo: nat, sp: Span) {
    lo <= sp.start <= |s| && ItemEnd(s, sp.start) == Some(sp.end)
  }

  /** No match of the item regex starts in `[lo, hi)`. */
  predicate NoMatchIn(s: string, lo: nat, hi: nat) {
    forall q :: lo <= q < hi <= |s| ==> ItemEnd(s, q).None?
  }

  /** Each match is the leftmost one after the previous match: it is a match
      of the item regex, and none starts in the gap before it, nor after the
      last one. */
  lemma {:induction false} ItemSpansLeftmost(s: string, i: nat)
    requires i <= |s|
    ensures var r := ItemSpans(s, i);
      forall k :: 0 <= k < |r| ==> MatchAfter(s, GapStart(i, r, k), r[k])
    ensures var r := ItemSpans(s, i);
      forall k :: 0 <= k <= |r| ==> NoMatchIn(s, GapStart(i, r, k), GapEnd(s, r, k))
    decreases |s| - i, 1
  {
    if i < |s| {
      match ItemEnd(s, i)
      case Some(e) => FoundLeftmost(s, i, e);
      case None => SkippedLeftmost(s, i);
    }
  }

  /** One step of the scan when a match starts at `i`. */
  lemma FoundEq(s: string, i: nat, e: nat)
    requires i < |s| && ItemEnd(s, i) == Some(e)
    ensures ItemSpans(s, i) == [Span(i, e)] + ItemSpans(s, e)
  {
  }

  /** One step of the scan when no match starts at `i`. */
  lemma SkipEq(s: string, i: nat)
    requires i < |s| && ItemEnd(s, i).None?
    ensures ItemSpans(s, i) == ItemSpans(s, i + 1)
  {
  }

  /** After the first match, the gaps of a scan are those of the scan that
      starts at that match's end. */
  lemma ShiftGaps(s: string, i: nat, e: nat, rest: seq<Span>, r: seq<Span>)
    requires r == [Span(i, e)] + rest
    ensures forall k :: 1 <= k <= |r| ==> GapStart(i, r, k) == GapStart(e, rest, k - 1)
    ensures forall k :: 1 <= k <= |r| ==> GapEnd(s, r, k) == GapEnd(s, rest, k - 1)
  {
  }

  /** The step where a match starts right at `i`. */
  lemma {:induction false} FoundLeftmost(s: string, i: nat, e: nat)
    requires i < |s| && ItemEnd(s, i) == Some(e)
    ensures var r := ItemSpans(s, i);
      forall k :: 0 <= k < |r| ==> MatchAfter(s, GapStart(i, r, k), r[k])
    ensures var r := ItemSpans(s, i);
      forall k :: 0 <= k <= |r| ==> NoMatchIn(s, GapStart(i, r, k), GapEnd(s, r, k))
    decreases |s| - i, 0
  {
    ItemSpansLeftmost(s, e);
    FoundEq(s, i, e);
    var rest := ItemSpans(s, e);
    var r := ItemSpans(s, i);
    ShiftGaps(s, i, e, rest, r);
    forall k | 1 <= k < |r| ensures MatchAfter(s, GapStart(i, r, k), r[k]) {
      assert r[k] == rest[k - 1];
    }
  }

  /** The step where no match starts at `i`. */
  lemma {:induction false} SkippedLeftmost(s: string, i: nat)
    requires i < |s| && ItemEnd(s, i).None?
    ensures var r := ItemSpans(s, i);
      forall k :: 0 <= k < |r| ==> MatchAfter(s, GapStart(i, r, k), r[k])
    ensures var r := ItemSpans(s, i);
      forall k :: 0 <= k <= |r| ==> NoMatchIn(s, GapStart(i, r, k), GapEnd(s, r, k))
    decreases |s| - i, 0
  {
    ItemSpansLeftmost(s, i + 1);
    SkipEq(s, i);
  }

  /** `re.findall(r"\d+\..*", s)`: the texts of the matches, in order. */
  function FindItems(s: string): (items: seq<string>) {
    var r := ItemSpans(s, 0);
    seq(|r|, k requires 0 <= k < |r| => s[r[k].start..r[k].end])
  }

  /** `agenda_points` of main.py:38. */
  function AgendaItems(text: string): seq<string> {
    FindItems(AgendaText(text))
  }

  // ---------------------------------------------------------------------
  // What the agenda half promises

  /** The `k`-th text `re.findall` returns is a whole item that stands in
      `s` at the `k`-th match and runs to the end of its line. */
  lemma FoundItemAt(s: string, k: nat)
    requires k < |ItemSpans(s, 0)|
    ensures var r := ItemSpans(s, 0);
      && IsItem(FindItems(s)[k])
      && OccursAt(s, FindItems(s)[k], r[k].start)
      && (r[k].end == |s| || s[r[k].end] == '\n')
  {
    ItemSpansLeftmost(s, 0);
    var r := ItemSpans(s, 0);
    assert MatchAfter(s, GapStart(0, r, k), r[k]);
    ItemEndIsItem(s, r[k].start);
    assert FindItems(s)[k] == s[r[k].start..r[k].end];
  }

  /** The matches `re.findall` returns are whole items, each running to the
      end of its line, and they stand in `s` in order without overlapping. */
  lemma FindItemsInOrder(s: string)
    ensures var r := ItemSpans(s, 0);
      && |FindItems(s)| == |r|
      && (forall k :: 0 <= k < |r| ==>
            && IsItem(FindItems(s)[k])
            && OccursAt(s, FindItems(s)[k], r[k].start)
            && (r[k].end == |s| || s[r[k].end] == '\n'))
      && (forall k :: 0 < k < |r| ==> r[k - 1].end <= r[k].start)
  {
    ItemSpansLeftmost(s, 0);
    var r := ItemSpans(s, 0);
    forall k | 0 <= k < |r|
      ensures IsItem(FindItems(s)[k])
      ensures OccursAt(s, FindItems(s)[k], r[k].start)
      ensures r[k].end == |s| || s[r[k].end] == '\n'
    {
      FoundItemAt(s, k);
    }
    forall k | 0 < k < |r| ensures r[k - 1].end <= r[k].start {
      assert MatchAfter(s, GapStart(0, r, k), r[k]);
    }
  }

  /** The scan from 0 at its `k`-th match and in the gap before it. */
  lemma ScanAt(s: string, k: nat)
    requires k <= |ItemSpans(s, 0)|
    ensures var r := ItemSpans(s, 0);
      && (k < |r| ==> MatchAfter(s, GapStart(0, r, k), r[k]))
      && NoMatchIn(s, GapStart(0, r, k), GapEnd(s, r, k))
  {
    ItemSpansLeftmost(s, 0);
  }

  /** `re.findall` returns nothing exactly when the item regex matches
      nowhere in `s`. */
  lemma FindItemsEmptyIff(s: string)
    ensures FindItems(s) == [] <==> forall q :: 0 <= q <= |s| ==> !ItemStartsAt(s, q)
  {
    ScanAt(s, 0);
    var r := ItemSpans(s, 0);
    if r == [] {
      forall q | 0 <= q <= |s| ensures !ItemStartsAt(s, q) {
        ItemEndIff(s, q);
      }
    } else {
      ItemEndIff(s, r[0].start);
      assert |FindItems(s)| == |r|;
    }
  }

  /** The block the search finds starts with "1.". */
  lemma BlockStart(text: string)
    requires AgendaBlock(text).Some?
    ensures var b := AgendaBlock(text).value; |b| >= 2 && b[0] == '1' && b[1] == '.'
  {
    var p := IndexFrom(text, AgendaStart, 0).value;
    var b := AgendaBlock(text).value;
    assert text[p..p + 2] == AgendaStart;
    assert b[0] == text[p..p + 2][0] && b[1] == text[p..p + 2][1];
  }

  /** The block the search finds has no blank line inside it. */
  lemma BlockHasNoBlankLine(text: string)
    requires AgendaBlock(text).Some?
    ensures !Contains(AgendaBlock(text).value, BlankLine)
  {
    BlockStart(text);
    var p := IndexFrom(text, AgendaStart, 0).value;
    var q := BlockEnd(text, p + 2);
    var b := text[p..q];
    forall j | 0 <= j <= |b| - |BlankLine| ensures !OccursAt(b, BlankLine, j) {
      OccursAtSlice(text, p, q, BlankLine, j);
      OccursAtHead(b, BlankLine, j);
    }
  }

  /** `strip` leaves the block's leading "1." in place: it only removes
      trailing whitespace. */
  lemma AgendaTextOfBlock(text: string)
    requires AgendaBlock(text).Some?
    ensures AgendaText(text) == TrimEnd(AgendaBlock(text).value)
    ensures |AgendaText(text)| >= 2 && AgendaText(text)[0] == '1' && AgendaText(text)[1] == '.'
  {
    BlockStart(text);
    var b := AgendaBlock(text).value;
    TrimStartAtWord(b);
    TrimEndKeepsTwo(b);
  }

  /** Without a literal "1." there is no agenda: `agenda_text` is empty and
      so is the item list. */
  lemma NoAgendaStart(text: string)
    requires !Contains(text, AgendaStart)
    ensures AgendaText(text) == "" && AgendaItems(text) == []
  {
    IndexFromZero(text, AgendaStart);
  }

  /** A text starting with "1." yields an item first, and that item starts
      with "1.". */
  lemma FirstItemAtStart(t: string)
    requires |t| >= 2 && t[0] == '1' && t[1] == '.'
    ensures FindItems(t) != []
    ensures |FindItems(t)[0]| >= 2 && FindItems(t)[0][..2] == AgendaStart
  {
    DigitRunIs(t, 0, 1);
    var e := ItemEnd(t, 0).value;
    FoundEq(t, 0, e);
    var item := FindItems(t)[0];
    assert item == t[0..e];
    assert item[..2] == [t[0], t[1]];
  }

  /** With a literal "1." the agenda text starts with it. */
  lemma AgendaTextStart(text: string)
    requires Contains(text, AgendaStart)
    ensures |AgendaText(text)| >= 2 && AgendaText(text)[0] == '1' && AgendaText(text)[1] == '.'
  {
    IndexFromZero(text, AgendaStart);
    AgendaTextOfBlock(text);
  }

  /** With a literal "1." the item list is not empty, and its first item is
      the one the block starts with. */
  lemma AgendaStartGivesItem(text: string)
    requires Contains(text, AgendaStart)
    ensures AgendaItems(text) != []
    ensures |AgendaItems(text)[0]| >= 2 && AgendaItems(text)[0][..2] == AgendaStart
  {
    AgendaTextStart(text);
    FirstItemAtStart(AgendaText(text));
  }

  /** The stripped block stands in the text at the first "1.", and ends
      before the blank line that closes the block. */
  lemma AgendaTextAt(text: string)
    requires Contains(text, AgendaStart)
    ensures var p := IndexFrom(text, AgendaStart, 0).value;
      && OccursAt(text, AgendaText(text), p)
      && p + |AgendaText(text)| <= BlockEnd(text, p + 2)
  {
    IndexFromZero(text, AgendaStart);
    AgendaTextOfBlock(text);
    var p := IndexFrom(text, AgendaStart, 0).value;
    SlicePrefixOccurs(text, p, BlockEnd(text, p + 2), AgendaText(text));
  }

  /** No blank line lies inside the stripped block. */
  lemma AgendaTextNoBlankLine(text: string)
    requires Contains(text, AgendaStart)
    ensures !Contains(AgendaText(text), BlankLine)
  {
    IndexFromZero(text, AgendaStart);
    AgendaTextOfBlock(text);
    BlockHasNoBlankLine(text);
    var b := AgendaBlock(text).value;
    var t := AgendaText(text);
    forall j | 0 <= j <= |t| - |BlankLine| ensures !OccursAt(t, BlankLine, j) {
      OccursAtSlice(b, 0, |t|, BlankLine, j);
    }
  }

  /** The item list is empty exactly when the text has no literal "1.". */
  lemma AgendaItemsEmptyIff(text: string)
    ensures AgendaItems(text) == [] <==> !Contains(text, AgendaStart)
  {
    if Contains(text, AgendaStart) {
      AgendaStartGivesItem(text);
    } else {
      NoAgendaStart(text);
    }
  }

  /** The `k`-th item found in a text `t` that stands in `s` at `p` stands
      in `s` inside that occurrence. */
  lemma FoundItemInText(s: string, t: string, p: nat, k: nat)
    requires OccursAt(s, t, p) && k < |FindItems(t)|
    ensures var j := p + ItemSpans(t, 0)[k].start;
      j + |FindItems(t)[k]| <= p + |t| && OccursAt(s, FindItems(t)[k], j)
  {
    FoundItemAt(t, k);
    assert t == s[p..p + |t|];
    OccursAtSlice(s, p, p + |t|, FindItems(t)[k], ItemSpans(t, 0)[k].start);
  }

  /** `item` stands in `s` between `p` and `e`. */
  predicate StandsWithin(s: string, item: string, p: nat, e: nat) {
    exists j :: p <= j && j + |item| <= e && OccursAt(s, item, j)
  }

  /** The items found in a text `t` that stands in `s` at `p` stand in `s`
      inside that occurrence, and so before any bound `e` past it. */
  lemma FoundItemsInText(s: string, t: string, p: nat, e: nat)
    requires OccursAt(s, t, p) && p + |t| <= e
    ensures forall k :: 0 <= k < |FindItems(t)| ==> StandsWithin(s, FindItems(t)[k], p, e)
  {
    forall k | 0 <= k < |FindItems(t)| ensures StandsWithin(s, FindItems(t)[k], p, e) {
      FoundItemInText(s, t, p, k);
      var j := p + ItemSpans(t, 0)[k].start;
      assert p <= j && j + |FindItems(t)[k]| <= e && OccursAt(s, FindItems(t)[k], j);
    }
  }

  /** Every item stands in the text inside the block from the first "1."
      to the first blank line after it, so nothing after that blank line is
      ever returned. */
  lemma AgendaItemsWithinBlock(text: string)
    requires Contains(text, AgendaStart)
    ensures var p := IndexFrom(text, AgendaStart, 0).value;
      var items := AgendaItems(text);
      forall k :: 0 <= k < |items| ==> StandsWithin(text, items[k], p, BlockEnd(text, p + 2))
  {
    IndexFromZero(text, AgendaStart);
    AgendaTextAt(text);
    var p := IndexFrom(text, AgendaStart, 0).value;
    FoundItemsInText(text, AgendaText(text), p, BlockEnd(text, p + 2));
  }
}

=== FILE: Extraction.dfy ===
/** `extract_meeting_details` (main.py:18-40): the meeting date and the
    agenda items of an invitation e-mail. */
module Extraction {
  import opened TextOps
  import MeetingDate
  import Agenda

  /** The pair `extract_meeting_details` returns. */
  datatype MeetingDetails = MeetingDetails(date: string, agendaPoints: seq<string>)

  /** The extraction never fails: the date is "Unknown Date" exactly when
      the date pattern matches nowhere, and the agenda is empty exactly when
      the text has no literal "1.". */
  function ExtractMeetingDetails(text: string): (d: MeetingDetails)
    ensures d.date == MeetingDate.UnknownDate <==>
      forall p :: 0 <= p <= |text| ==> MeetingDate.MatchAt(text, p).None?
    ensures d.agendaPoints == [] <==> !Contains(text, Agenda.AgendaStart)
  {
    MeetingDate.UnknownDateIff(text);
    Agenda.AgendaItemsEmptyIff(text);
    MeetingDetails(MeetingDate.ExtractDate(text), Agenda.AgendaItems(text))
  }
}

=== FILE: MeetingDate.dfy ===
/** The date half of `extract_meeting_details` (main.py:18-31): the regex
    search `scheduled on ([A-Za-z]+, [A-Za-z]+ \d{1,2}, \d{4})`, the weekday
    dropped with `split`/`join`, `strptime(.., "%B %d, %Y")`, `strftime` with
    the same format, and the two fallbacks. */
module MeetingDate {
  import opened Wrappers
  import opened TextOps
  import opened Pieces

  /** The literal that introduces the date in the email. */
  const Lead := "scheduled on "

  /** The sentinel returned when the email has no date phrase. */
  const UnknownDate := "Unknown Date"

  /** English month names, as `%B` prints them. */
  const MonthNames: seq<string> := ["January", "February", "March", "April", "May", "June",
    "July", "August", "September", "October", "November", "December"]

  /** The same names in lower case, as `strptime` compares them. */
  const MonthKeys: seq<string> := ["january", "february", "march", "april", "may", "june",
    "july", "august", "september", "october", "november", "december"]

  /** The four parts of a match of the date regex. */
  datatype DateMatch = DateMatch(weekday: string, month: string, day: string, year: string)
  {
    /** `group(1)` of the match: the captured text, weekday included. */
    function Raw(): string {
      weekday + (", " + Clean())
    }

    /** What is left of group 1 once the weekday word is dropped. */
    function Clean(): string {
      month + (" " + (day + (", " + year)))
    }

    /** The shape the regex gives each part. */
    predicate WellFormed() {
      && |weekday| > 0 && AllLetters(weekday)
      && |month| > 0 && AllLetters(month)
      && 1 <= |day| <= 2 && AllDigits(day)
      && |year| == 4 && AllDigits(year)
    }
  }

  /** `scheduled on ([A-Za-z]+, [A-Za-z]+ \d{1,2}, \d{4})`. */
  const DatePattern: seq<Piece> := [Literal(Lead), Letters, Literal(", "), Letters,
    Literal(" "), Digits(1, 2), Literal(", "), Digits(4, 4)]

  /** The date regex tried at position `i` of `s` (what `re.search` does at
      one starting position). */
  function MatchAt(s: string, i: nat): Option<DateMatch>
    requires i <= |s|
  {
    match MatchPieces(DatePattern, s, i)
    case None => None
    case Some(c) =>
      DatePatternShape();
      Some(DateMatch(c[0], c[1], c[2], c[3]))
  }

  lemma DatePatternShape()
    ensures CaptureCount(DatePattern) == 4
    ensures Separated(DatePattern)
  {
    var ps := DatePattern;
    assert ps[7..][1..] == [];
    assert CaptureCount(ps[7..]) == 1;
    assert ps[6..][1..] == ps[7..];
    assert CaptureCount(ps[6..]) == 1;
    assert ps[5..][1..] == ps[6..];
    assert CaptureCount(ps[5..]) == 2;
    assert ps[4..][1..] == ps[5..];
    assert CaptureCount(ps[4..]) == 2;
    assert ps[3..][1..] == ps[4..];
    assert CaptureCount(ps[3..]) == 3;
    assert ps[2..][1..] == ps[3..];
    assert CaptureCount(ps[2..]) == 3;
    assert ps[1..][1..] == ps[2..];
    assert CaptureCount(ps[1..]) == 4;
    forall k | 0 <= k < |ps| ensures Bounded(ps, k) {
    }
  }

  /** The text the regex consumes for a match: the lead phrase and group 1. */
  function Matched(m: DateMatch): string {
    Lead + m.Raw()
  }

  function Captures(m: DateMatch): seq<string> {
    [m.weekday, m.month, m.day, m.year]
  }

  lemma DatePatternFacts(m: DateMatch)
    ensures CaptureCount(DatePattern) == 4
    ensures Render(DatePattern, Captures(m)) == Matched(m)
    ensures AllFit(DatePattern, Captures(m)) <==> m.WellFormed()
  {
    DatePatternShape();
    var ps := DatePattern;
    var c := Captures(m);
    assert ps[1..][1..] == ps[2..] && ps[2..][1..] == ps[3..] && ps[3..][1..] == ps[4..];
    assert ps[4..][1..] == ps[5..] && ps[5..][1..] == ps[6..] && ps[6..][1..] == ps[7..];
    assert ps[7..][1..] == [];
    var c1, c2, c3 := [m.month, m.day, m.year], [m.day, m.year], [m.year];
    assert c[1..] == c1 && c1[1..] == c2 && c2[1..] == c3 && c3[1..] == [];
    assert Render(ps[7..], c3) == m.year;
    assert Render(ps[6..], c3) == ", " + m.year;
    assert Render(ps[5..], c2) == m.day + (", " + m.year);
    assert Render(ps[4..], c2) == " " + (m.day + (", " + m.year));
    assert Render(ps[3..], c1) == m.Clean();
    assert Render(ps[2..], c1) == ", " + m.Clean();
    assert Render(ps[1..], c) == m.Raw();
    assert AllFit(ps[7..], c3) <==> Fits(Digits(4, 4), m.year);
    assert AllFit(ps[6..], c3) == AllFit(ps[7..], c3);
    assert AllFit(ps[5..], c2) <==> Fits(Digits(1, 2), m.day) && AllFit(ps[6..], c3);
    assert AllFit(ps[4..], c2) == AllFit(ps[5..], c2);
    assert AllFit(ps[3..], c1) <==> Fits(Letters, m.month) && AllFit(ps[4..], c2);
    assert AllFit(ps[2..], c1) == AllFit(ps[3..], c1);
    assert AllFit(ps[1..], c) <==> Fits(Letters, m.weekday) && AllFit(ps[2..], c1);
    assert AllFit(ps, c) == AllFit(ps[1..], c);
  }

  /** A match found at `i` is well formed and is literally there in `s`. */
  lemma MatchAtSound(s: string, i: nat)
    requires i <= |s| && MatchAt(s, i).Some?
    ensures MatchAt(s, i).value.WellFormed()
    ensures OccursAt(s, Matched(MatchAt(s, i).value), i)
  {
    var m := MatchAt(s, i).value;
    var c := MatchPieces(DatePattern, s, i).value;
    DatePatternFacts(m);
    assert c == Captures(m);
    MatchPiecesSound(DatePattern, s, i);
  }

  /** Conversely, wherever a well-formed date phrase literally stands, the
      regex matches there and captures exactly its parts. */
  lemma MatchAtComplete(s: string, i: nat, m: DateMatch)
    requires i <= |s| && m.WellFormed() && OccursAt(s, Matched(m), i)
    ensures MatchAt(s, i) == Some(m)
  {
    DatePatternShape();
    DatePatternFacts(m);
    MatchPiecesComplete(DatePattern, Captures(m), s, i);
  }

  /** The leftmost match at or after `i`: what `re.search` returns. */
  function FirstMatchFrom(s: string, i: nat): (r: Option<(nat, DateMatch)>)
    requires i <= |s|
    ensures r.Some? ==> i <= r.value.0 <= |s| && MatchAt(s, r.value.0) == Some(r.value.1)
    ensures r.Some? ==> forall q :: i <= q < r.value.0 ==> MatchAt(s, q).None?
    ensures r.None? ==> forall q :: i <= q <= |s| ==> MatchAt(s, q).None?
    decreases |s| - i
  {
    match MatchAt(s, i)
    case Some(m) => Some((i, m))
    case None => if i == |s| then None else FirstMatchFrom(s, i + 1)
  }

  /** The leftmost match is determined by its position: any match with no
      match before it is the one `re.search` returns. */
  lemma {:induction false} FirstMatchIs(s: string, i: nat, p: nat, m: DateMatch)
    requires i <= p <= |s| && MatchAt(s, p) == Some(m)
    requires forall q :: i <= q < p ==> MatchAt(s, q).None?
    ensures FirstMatchFrom(s, i) == Some((p, m))
    decreases p - i
  {
    if i < p {
      FirstMatchIs(s, i + 1, p, m);
    }
  }

  // ---------------------------------------------------------------------
  // strptime / strftime with the format "%B %d, %Y"

  /** A proleptic Gregorian calendar date, as Python's `datetime` holds it. */
  datatype CivilDate = CivilDate(year: nat, month: nat, day: nat)

  predicate IsLeapYear(y: nat) {
    y % 4 == 0 && (y % 100 != 0 || y % 400 == 0)
  }

  function DaysInMonth(y: nat, m: nat): (n: nat)
    requires 1 <= m <= 12
    ensures 28 <= n <= 31
  {
    if m == 2 then (if IsLeapYear(y) then 29 else 28)
    else if m == 4 || m == 6 || m == 9 || m == 11 then 30
    else 31
  }

  /** The dates `datetime` accepts (MINYEAR is 1, MAXYEAR 9999). */
  predicate ValidDate(y: nat, m: nat, d: nat) {
    1 <= y <= 9999 && 1 <= m <= 12 && 1 <= d <= DaysInMonth(y, m)
  }

  function DigitValue(c: char): nat
    requires IsDigit(c)
  {
    c as nat - '0' as nat
  }

  function DigitChar(v: nat): (c: char)
    requires v < 10
    ensures IsDigit(c) && DigitValue(c) == v
  {
    ('0' as nat + v) as char
  }

  /** `int(s)` for a string of ASCII digits. */
  function NumberValue(s: string): nat
    requires AllDigits(s)
  {
    if s == [] then 0 else NumberValue(s[..|s| - 1]) * 10 + DigitValue(s[|s| - 1])
  }

  function Pow10(w: nat): (p: nat)
    ensures p >= 1
  {
    if w == 0 then 1 else 10 * Pow10(w - 1)
  }

  /** The last `w` decimal digits of `n`, zero-padded: `%02d` for `w == 2`
      and `%04d` for `w == 4`. */
  function FixedDigits(n: nat, w: nat): (r: string)
    ensures |r| == w && AllDigits(r)
  {
    if w == 0 then [] else FixedDigits(n / 10, w - 1) + [DigitChar(n % 10)]
  }

  /** Reading the padded digits gives the number back when it fits. */
  lemma {:induction false} FixedDigitsValue(n: nat, w: nat)
    requires n < Pow10(w)
    ensures NumberValue(FixedDigits(n, w)) == n
  {
    if w > 0 {
      FixedDigitsValue(n / 10, w - 1);
      var r := FixedDigits(n, w);
      assert r[..|r| - 1] == FixedDigits(n / 10, w - 1);
    }
  }

  /** Printing a digit string's value back in its own width gives the digit
      string: `%04d` of the matched year is the matched year. */
  lemma {:induction false} FixedDigitsOfValue(s: string)
    requires AllDigits(s)
    ensures FixedDigits(NumberValue(s), |s|) == s
  {
    if s != [] {
      var init := s[..|s| - 1];
      FixedDigitsOfValue(init);
      var v := NumberValue(s);
      assert v / 10 == NumberValue(init);
      assert v % 10 == DigitValue(s[|s| - 1]);
      assert s == init + [s[|s| - 1]];
    }
  }

  /** The month named, 1-based, ignoring case (`%B` matches case-insensitively). */
  function MonthNumber(name: string): (r: Option<nat>)
    ensures r.Some? ==> 1 <= r.value <= 12 && Lower(name) == MonthKeys[r.value - 1]
    ensures r.None? ==> forall k :: 0 <= k < 12 ==> Lower(name) != MonthKeys[k]
  {
    MonthFrom(Lower(name), 0)
  }

  function MonthFrom(lname: string, k: nat): (r: Option<nat>)
    requires k <= 12
    ensures r.Some? ==> k < r.value <= 12 && lname == MonthKeys[r.value - 1]
    ensures r.None? ==> forall j :: k <= j < 12 ==> lname != MonthKeys[j]
    decreases 12 - k
  {
    if k == 12 then None
    else if lname == MonthKeys[k] then Some(k + 1)
    else MonthFrom(lname, k + 1)
  }

  /** Each key is its month name in lower case. */
  lemma MonthKeysAreLower()
    ensures forall k :: 0 <= k < 12 ==> Lower(MonthNames[k]) == MonthKeys[k]
  {
    MonthKeysLowerOf();
    forall k | 0 <= k < 12 ensures Lower(MonthNames[k]) == MonthKeys[k] {
      LowerIs(MonthNames[k], MonthKeys[k]);
    }
  }

  lemma MonthKeysLowerOf()
    ensures forall k :: 0 <= k < 12 ==> LowerOf(MonthNames[k], MonthKeys[k])
  {
  }

  /** No two months share a name. */
  lemma MonthKeysDistinct()
    ensures forall j, k :: 0 <= j < k < 12 ==> MonthKeys[j] != MonthKeys[k]
  {
  }

  /** `%B` reads back every name `%B` prints: month `k + 1` from its name. */
  lemma MonthNumberOfName(k: nat)
    requires k < 12
    ensures MonthNumber(MonthNames[k]) == Some(k + 1)
  {
    MonthKeysAreLower();
    MonthKeysDistinct();
    var r := MonthNumber(MonthNames[k]);
    assert Lower(MonthNames[k]) == MonthKeys[k];
    assert r.Some?;
  }

  /** `datetime.strptime(s, "%B %d, %Y")`, `None` where it raises: a full
      month name, whitespace, a day of one or two digits between 1 and 31, a
      comma, whitespace, four year digits ending the string, and a date that
      exists. */
  function ParseMonthDayYear(s: string): Option<CivilDate> {
    var n := LetterRun(s, 0);
    ParseAfterMonth(s, n, MonthNumber(s[..n]))
  }

  /** The rest of the format once `%B` has consumed `s[..n]` and looked it
      up as `month`. */
  function ParseAfterMonth(s: string, n: nat, month: Option<nat>): Option<CivilDate>
    requires n <= |s|
  {
    match month
    case None => None
    case Some(month) =>
      var d := n + SpaceRun(s, n);
      var dn := DigitRun(s, d);
      if d == n || dn == 0 || dn > 2 || d + dn == |s| || s[d + dn] != ',' then None
      else
        var day := NumberValue(s[d..d + dn]);
        var c := d + dn + 1;
        var y := c + SpaceRun(s, c);
        if day < 1 || day > 31 || y == c || y + 4 != |s| || !AllDigits(s[y..]) then None
        else
          var year := NumberValue(s[y..]);
          if ValidDate(year, month, day) then Some(CivilDate(year, month, day)) else None
  }

  /** `date.strftime("%B %d, %Y")`. */
  function FormatDate(d: CivilDate): string
    requires 1 <= d.month <= 12
  {
    MonthNames[d.month - 1] + (" " + (FixedDigits(d.day, 2) + (", " + FixedDigits(d.year, 4))))
  }

  /** `" ".join(raw_date.split()[1:])`: the captured text without its first word. */
  function DropFirstWord(raw: string): string {
    var words := SplitWords(raw);
    Join(if words == [] then [] else words[1..], " ")
  }

  /** The `try` block of main.py:23-27; `None` where it raises. */
  function Normalize(raw: string): Option<string> {
    match ParseMonthDayYear(DropFirstWord(raw))
    case None => None
    case Some(d) => Some(FormatDate(d))
  }

  /** The meeting date `extract_meeting_details` returns. */
  function ExtractDate(text: string): string {
    match FirstMatchFrom(text, 0)
    case None => UnknownDate
    case Some((_, m)) =>
      match Normalize(m.Raw())
      case Some(date) => date
      case None => m.Raw()
  }

  /** Every month name is a word the date regex's `[A-Za-z]+` accepts. */
  lemma MonthNamesAreLetters()
    ensures forall k :: 0 <= k < 12 ==> |MonthNames[k]| > 0 && AllLetters(MonthNames[k])
  {
  }

  /** `strptime` reads back what `strftime` prints with the same format: every
      date `datetime` accepts survives printing and parsing unchanged. */
  lemma FormatDateRoundTrip(d: CivilDate)
    requires ValidDate(d.year, d.month, d.day)
    ensures ParseMonthDayYear(FormatDate(d)) == Some(d)
  {
    var m := PrintedMatch(d);
    ParseCleanDate(m);
    MonthNumberOfName(d.month - 1);
    assert Pow10(2) == 100 && Pow10(4) == 10000;
    FixedDigitsValue(d.day, 2);
    FixedDigitsValue(d.year, 4);
  }

  /** The printed date is the clean part of a well-formed match. */
  lemma PrintedMatch(d: CivilDate) returns (m: DateMatch)
    requires 1 <= d.month <= 12
    ensures m.WellFormed() && m.Clean() == FormatDate(d)
    ensures m.month == MonthNames[d.month - 1]
    ensures m.day == FixedDigits(d.day, 2) && m.year == FixedDigits(d.year, 4)
  {
    m := DateMatch("Monday", MonthNames[d.month - 1], FixedDigits(d.day, 2), FixedDigits(d.year, 4));
    MonthNamesAreLetters();
  }

  // ---------------------------------------------------------------------
  // What the date half promises

  /** The four words of group 1 hold no whitespace. */
  lemma PartsHaveNoSpace(m: DateMatch)
    requires m.WellFormed()
    ensures NoSpace(m.weekday + ",") && NoSpace(m.month)
    ensures NoSpace(m.day + ",") && NoSpace(m.year)
  {
    assert forall k :: 0 <= k < |m.weekday| ==> (m.weekday + ",")[k] == m.weekday[k];
    assert forall k :: 0 <= k < |m.day| ==> (m.day + ",")[k] == m.day[k];
  }

  /** The words of "<a>, <b> <c>, <d>" when none of the parts has a space. */
  lemma WordsOfPhrase(a: string, b: string, c: string, d: string)
    requires NoSpace(a + ",") && b != [] && NoSpace(b)
    requires NoSpace(c + ",") && d != [] && NoSpace(d)
    ensures SplitWords(a + (", " + (b + (" " + (c + (", " + d)))))) == [a + ","] + ([b] + ([c + ","] + [d]))
  {
    SplitWordsComma(a, b + (" " + (c + (", " + d))));
    SplitWordsSpaced(b, c + (", " + d));
    SplitWordsComma(c, d);
    SplitWordsOne(d);
  }

  /** Joining the last three words back with single spaces. */
  lemma JoinThree(b: string, c: string, d: string)
    ensures Join([b] + ([c + ","] + [d]), " ") == b + (" " + (c + (", " + d)))
  {
    var ws := [b] + ([c + ","] + [d]);
    assert ws[0] == b;
    assert ws[1..] == [c + ","] + [d];
    assert ws[1..][1..] == [d];
    assert Join(ws[1..], " ") == (c + ",") + " " + d;
    assert (c + ",") + " " + d == c + (", " + d);
  }

  /** Dropping the weekday word leaves "<Month> <Day>, <Year>". */
  lemma DropFirstWordOfMatch(m: DateMatch)
    requires m.WellFormed()
    ensures DropFirstWord(m.Raw()) == m.Clean()
  {
    PartsHaveNoSpace(m);
    WordsOfPhrase(m.weekday, m.month, m.day, m.year);
    JoinThree(m.month, m.day, m.year);
    DropHead(m.weekday + ",", [m.month] + ([m.day + ","] + [m.year]));
  }

  /** Where the fields of "<Month> <Day>, <Year>" sit, as the parser's
      scans find them: the month name and one space, ... */
  lemma MonthPart(m: DateMatch)
    requires m.WellFormed()
    ensures var s, n := m.Clean(), |m.month|;
      LetterRun(s, 0) == n && s[..n] == m.month && SpaceRun(s, n) == 1
  {
    var s, n := m.Clean(), |m.month|;
    assert forall k :: 0 <= k < n ==> s[k] == m.month[k];
    assert s[n] == ' ';
    LetterRunIs(s, 0, n);
    assert s[..n] == m.month;
    assert s[n + 1] == m.day[0];
    SpaceRunIs(s, n, 1);
  }

  /** ... the day digits and the comma, ... */
  lemma DayPart(m: DateMatch)
    requires m.WellFormed()
    ensures var s, d := m.Clean(), |m.month| + 1;
      DigitRun(s, d) == |m.day| && s[d..d + |m.day|] == m.day && s[d + |m.day|] == ','
  {
    var s, d := m.Clean(), |m.month| + 1;
    assert forall k :: d <= k < d + |m.day| ==> s[k] == m.day[k - d];
    assert s[d + |m.day|] == ',';
    DigitRunIs(s, d, |m.day|);
    assert s[d..d + |m.day|] == m.day;
  }

  /** ... and one space before the four year digits that end the text. */
  lemma YearPart(m: DateMatch)
    requires m.WellFormed()
    ensures var s, c := m.Clean(), |m.month| + |m.day| + 2;
      |s| == c + 5 && SpaceRun(s, c) == 1 && s[c + 1..] == m.year
  {
    var s, c := m.Clean(), |m.month| + |m.day| + 2;
    assert s[c] == ' ';
    assert s[c + 1] == m.year[0];
    SpaceRunIs(s, c, 1);
    assert s[c + 1..] == m.year;
  }

  /** Past the month name, a text laid out as "<n letters> <dd>, <yyyy>"
      parses to the looked-up month, the day and the year, if that date
      exists. */
  lemma ParseAfterMonthLayout(s: string, n: nat, dd: string, yy: string, month: Option<nat>)
    requires var c := n + |dd| + 2;
      && 1 <= |dd| <= 2 && |yy| == 4 && AllDigits(yy) && |s| == c + 5
      && SpaceRun(s, n) == 1
      && DigitRun(s, n + 1) == |dd| && s[n + 1..n + 1 + |dd|] == dd && s[n + 1 + |dd|] == ','
      && SpaceRun(s, c) == 1 && s[c + 1..] == yy
    ensures var r := ParseAfterMonth(s, n, month);
      match month
      case None => r.None?
      case Some(k) =>
        var day := NumberValue(dd);
        var year := NumberValue(yy);
        r == if ValidDate(year, k, day) then Some(CivilDate(year, k, day)) else None
  {
  }

  /** `s` reads "<mo> <dd>, <yy>" with the scans finding exactly those fields. */
  predicate DateLayout(s: string, mo: string, dd: string, yy: string) {
    var n := |mo|;
    var c := n + |dd| + 2;
    && 1 <= |dd| <= 2 && |yy| == 4 && AllDigits(yy) && |s| == c + 5
    && LetterRun(s, 0) == n && s[..n] == mo && SpaceRun(s, n) == 1
    && DigitRun(s, n + 1) == |dd| && s[n + 1..n + 1 + |dd|] == dd && s[n + 1 + |dd|] == ','
    && SpaceRun(s, c) == 1 && s[c + 1..] == yy
  }

  lemma CleanLayout(m: DateMatch)
    requires m.WellFormed()
    ensures DateLayout(m.Clean(), m.month, m.day, m.year)
  {
    MonthPart(m);
    DayPart(m);
    YearPart(m);
  }

  /** `strptime` on a text laid out as "<mo> <dd>, <yy>". */
  lemma ParseByLayout(s: string, mo: string, dd: string, yy: string)
    requires DateLayout(s, mo, dd, yy)
    ensures var r := ParseMonthDayYear(s);
      match MonthNumber(mo)
      case None => r.None?
      case Some(k) =>
        var day := NumberValue(dd);
        var year := NumberValue(yy);
        r == if ValidDate(year, k, day) then Some(CivilDate(year, k, day)) else None
  {
    ParseAfterMonthLayout(s, |mo|, dd, yy, MonthNumber(mo));
  }

  /** `strptime` on "<Month> <Day>, <Year>" built from a match succeeds
      exactly when the month is a full month name and the date exists. */
  lemma ParseCleanDate(m: DateMatch)
    requires m.WellFormed()
    ensures var r := ParseMonthDayYear(m.Clean());
      match MonthNumber(m.month)
      case None => r.None?
      case Some(k) =>
        var day := NumberValue(m.day);
        var year := NumberValue(m.year);
        r == if ValidDate(year, k, day) then Some(CivilDate(year, k, day)) else None
  {
    CleanLayout(m);
    ParseByLayout(m.Clean(), m.month, m.day, m.year);
  }

  /** The `try` block on a match: it fails exactly on an unknown month name or
      a date that does not exist (day 0, February 30, year 0000, ...), and
      otherwise yields the canonical month name, the day as two digits of the
      same value, and the four matched year digits; the weekday is gone. */
  lemma NormalizeMatch(m: DateMatch)
    requires m.WellFormed()
    ensures Normalize(m.Raw()).Some? <==>
      MonthNumber(m.month).Some? && ValidDate(NumberValue(m.year), MonthNumber(m.month).value, NumberValue(m.day))
    ensures Normalize(m.Raw()).Some? ==>
      var k := MonthNumber(m.month).value;
      var dd := FixedDigits(NumberValue(m.day), 2);
      && Normalize(m.Raw()).value == MonthNames[k - 1] + (" " + (dd + (", " + m.year)))
      && |dd| == 2 && AllDigits(dd) && NumberValue(dd) == NumberValue(m.day)
      && Lower(m.month) == MonthKeys[k - 1]
  {
    DropFirstWordOfMatch(m);
    ParseCleanDate(m);
    if Normalize(m.Raw()).Some? {
      var k := MonthNumber(m.month).value;
      var day := NumberValue(m.day);
      assert day <= 31;
      assert Pow10(2) == 100;
      FixedDigitsValue(day, 2);
      FixedDigitsOfValue(m.year);
    }
  }

  /** The date is the sentinel exactly when the text holds no date phrase. */
  lemma UnknownDateIff(text: string)
    ensures ExtractDate(text) == UnknownDate <==> forall p :: 0 <= p <= |text| ==> MatchAt(text, p).None?
  {
    match FirstMatchFrom(text, 0)
    case None =>
    case Some((p, m)) =>
      MatchAtSound(text, p);
      FoundIsNotUnknown(m);
  }

  /** Whatever a match yields, normalised or not, holds a comma, which the
      sentinel does not. */
  lemma FoundIsNotUnknown(m: DateMatch)
    requires m.WellFormed()
    ensures Normalize(m.Raw()) != Some(UnknownDate)
    ensures m.Raw() != UnknownDate
  {
    CommaIsNotUnknown(m.weekday, m.Clean());
    NormalizeMatch(m);
    if Normalize(m.Raw()).Some? {
      var k := MonthNumber(m.month).value;
      SpacedCommaIsNotUnknown(MonthNames[k - 1], FixedDigits(NumberValue(m.day), 2), m.year);
    }
  }

  /** "<a>, <b>" is not the sentinel: it holds a comma. */
  lemma CommaIsNotUnknown(a: string, b: string)
    ensures a + (", " + b) != UnknownDate
  {
    assert ',' !in UnknownDate;
    assert (a + (", " + b))[|a|] == ',';
  }

  /** Nor is "<a> <b>, <c>". */
  lemma SpacedCommaIsNotUnknown(a: string, b: string, c: string)
    ensures a + (" " + (b + (", " + c))) != UnknownDate
  {
    assert ',' !in UnknownDate;
    assert (a + (" " + (b + (", " + c))))[|a| + 1 + |b|] == ',';
  }

  /** The result depends only on the leftmost date phrase: it is the
      normalised date when that phrase parses and the phrase's captured
      text, weekday included, when it does not. */
  lemma ExtractDateOfFirstMatch(text: string, p: nat, m: DateMatch)
    requires p <= |text| && MatchAt(text, p) == Some(m)
    requires forall q :: 0 <= q < p ==> MatchAt(text, q).None?
    ensures ExtractDate(text) == if Normalize(m.Raw()).Some? then Normalize(m.Raw()).value else m.Raw()
  {
    FirstMatchIs(text, 0, p, m);
  }

  predicate LetterSpaceLetter(s: string, j: int) {
    0 <= j && j + 2 < |s| && IsLetter(s[j]) && s[j + 1] == ' ' && IsLetter(s[j + 2])
  }

  /** Group 1 never has a letter, a space and a letter in a row: the spaces
      in it follow a comma or precede the day digits. */
  lemma RawHasNoLetterSpaceLetter(m: DateMatch, j: int)
    requires m.WellFormed()
    ensures !LetterSpaceLetter(m.Raw(), j)
  {
    var r := m.Raw();
    var a := |m.weekday|;
    var b := a + 2 + |m.month|;
    var c := b + 1 + |m.day|;
    assert |r| == c + 6;
    assert forall k :: 0 <= k < a ==> r[k] == m.weekday[k];
    assert r[a] == ',' && r[a + 1] == ' ';
    assert forall k :: a + 2 <= k < b ==> r[k] == m.month[k - a - 2];
    assert r[b] == ' ';
    assert forall k :: b + 1 <= k < c ==> r[k] == m.day[k - b - 1];
    assert r[c] == ',' && r[c + 1] == ' ';
    assert forall k :: c + 2 <= k < |r| ==> r[k] == m.year[k - c - 2];
  }

  /** A lead phrase standing wholly inside group 1 would put "d o" there. */
  lemma LeadInRaw(m: DateMatch, k: int)
    requires k >= |Lead|
    ensures OccursAt(Matched(m), Lead, k) ==> LetterSpaceLetter(m.Raw(), k + 8 - |Lead|)
  {
    var f := Matched(m);
    if OccursAt(f, Lead, k) {
      assert f[k + 8..k + 11] == Lead[8..11];
      assert f[k + 8] == m.Raw()[k + 8 - |Lead|];
      assert f[k + 9] == m.Raw()[k + 9 - |Lead|];
      assert f[k + 10] == m.Raw()[k + 10 - |Lead|];
    }
  }

  /** The lead phrase occurs in the matched text only at its start. */
  lemma LeadOnlyAtStart(m: DateMatch, k: int)
    requires m.WellFormed() && 0 < k
    ensures !OccursAt(Matched(m), Lead, k)
  {
    var f := Matched(m);
    if k < |Lead| {
      assert f[..|Lead|] == Lead;
      assert forall j :: 0 < j < |Lead| ==> f[j] != Lead[0];
      OccursAtHead(f, Lead, k);
    } else {
      LeadInRaw(m, k);
      RawHasNoLetterSpaceLetter(m, k + 8 - |Lead|);
    }
  }

  /** Only the first date phrase counts: whatever follows a text that
      already holds one (another "scheduled on ..." included) leaves the
      date unchanged. */
  lemma FirstMatchOnly(text: string, rest: string)
    requires FirstMatchFrom(text, 0).Some?
    ensures ExtractDate(text + rest) == ExtractDate(text)
  {
    var (p, m) := FirstMatchFrom(text, 0).value;
    MatchAtSound(text, p);
    OccursAtExtend(text, rest, Matched(m), p);
    MatchAtComplete(text + rest, p, m);
    forall q | 0 <= q < p ensures MatchAt(text + rest, q).None? {
      NoEarlierMatch(text, rest, p, m, q);
    }
    FirstMatchIs(text + rest, 0, p, m);
    ExtractDateOfFirstMatch(text, p, m);
  }

  /** Appending text creates no match before a match that is already
      there: a new one would have to run past the end of `text`, across the
      old match's lead phrase. */
  lemma NoEarlierMatch(text: string, rest: string, p: nat, m: DateMatch, q: nat)
    requires p <= |text| && MatchAt(text, p) == Some(m)
    requires q < p && MatchAt(text, q).None?
    ensures MatchAt(text + rest, q).None?
  {
    var s := text + rest;
    if MatchAt(s, q).Some? {
      var m' := MatchAt(s, q).value;
      MatchAtSound(s, q);
      var f := Matched(m');
      if q + |f| <= |text| {
        OccursAtPrefix(text, rest, f, q);
        MatchAtComplete(text, q, m');
      } else {
        MatchAtSound(text, p);
        OccursAtExtend(text, rest, Matched(m), p);
        OccursAtConcat(s, Lead, m.Raw(), p);
        OccursAtWithin(s, f, q, Lead, p);
        LeadOnlyAtStart(m', p - q);
      }
    }
  }
}

=== FILE: Pieces.dfy ===
/** The regular expression main.py:20 uses to find the date, written as a
    sequence of pieces matched left to right: a literal, a run of `[A-Za-z]+`,
    or `\d{min,max}`. The matcher takes the longest run a piece allows and
    never backtracks; `Separated` names the patterns on which that agrees with
    Python's backtracking engine (each run is followed by a literal that
    cannot extend it, or has a fixed length). */
module Pieces {
  import opened Wrappers
  import opened TextOps

  datatype Piece = Literal(text: string) | Letters | Digits(min: nat, max: nat)

  predicate Capturing(p: Piece) { !p.Literal? }

  /** Number of pieces that capture text (the groups of the match). */
  function CaptureCount(ps: seq<Piece>): nat {
    if ps == [] then 0 else (if Capturing(ps[0]) then 1 else 0) + CaptureCount(ps[1..])
  }

  /** `c` is text the capturing piece `p` may stand for. */
  predicate Fits(p: Piece, c: string) {
    match p
    case Literal(t) => c == t
    case Letters => |c| >= 1 && AllLetters(c)
    case Digits(lo, hi) => lo <= |c| <= hi && AllDigits(c)
  }

  /** The length a capturing piece consumes at `i`, if any. */
  function Take(p: Piece, s: string, i: nat): (r: Option<nat>)
    requires i <= |s| && Capturing(p)
    ensures r.Some? ==> i + r.value <= |s| && Fits(p, s[i..i + r.value])
  {
    match p
    case Letters =>
      var n := LetterRun(s, i);
      if n == 0 then None else Some(n)
    case Digits(lo, hi) =>
      var n := DigitRun(s, i);
      if n < lo || hi < lo then None else Some(if n < hi then n else hi)
  }

  /** The pieces matched at position `i`: the captured texts, in order. */
  function MatchPieces(ps: seq<Piece>, s: string, i: nat): (r: Option<seq<string>>)
    requires i <= |s|
    ensures r.Some? ==> |r.value| == CaptureCount(ps)
    decreases |ps|
  {
    if ps == [] then Some([])
    else if ps[0].Literal? then
      if OccursAt(s, ps[0].text, i) then MatchPieces(ps[1..], s, i + |ps[0].text|) else None
    else
      match Take(ps[0], s, i)
      case None => None
      case Some(n) =>
        match MatchPieces(ps[1..], s, i + n)
        case None => None
        case Some(rest) => Some([s[i..i + n]] + rest)
  }

  /** The text a match with the given captures consumes. */
  function Render(ps: seq<Piece>, caps: seq<string>): string
    requires |caps| == CaptureCount(ps)
    decreases |ps|
  {
    if ps == [] then []
    else if ps[0].Literal? then ps[0].text + Render(ps[1..], caps)
    else caps[0] + Render(ps[1..], caps[1..])
  }

  /** Every capture fits the piece it stands for. */
  predicate AllFit(ps: seq<Piece>, caps: seq<string>)
    requires |caps| == CaptureCount(ps)
    decreases |ps|
  {
    if ps == [] then true
    else if ps[0].Literal? then AllFit(ps[1..], caps)
    else Fits(ps[0], caps[0]) && AllFit(ps[1..], caps[1..])
  }

  /** Each run is followed by a literal whose first character the run cannot
      take, or has a fixed length, so the longest run is the only one the
      rest of the pattern can follow. */
  predicate Separated(ps: seq<Piece>) {
    forall k :: 0 <= k < |ps| ==> Bounded(ps, k)
  }

  predicate Bounded(ps: seq<Piece>, k: nat)
    requires k < |ps|
  {
    match ps[k]
    case Literal(_) => true
    case Letters => k + 1 < |ps| && ps[k + 1].Literal? && ps[k + 1].text != [] && !IsLetter(ps[k + 1].text[0])
    case Digits(lo, hi) =>
      1 <= lo <= hi &&
      (lo == hi || (k + 1 < |ps| && ps[k + 1].Literal? && ps[k + 1].text != [] && !IsDigit(ps[k + 1].text[0])))
  }

  lemma SeparatedTail(ps: seq<Piece>)
    requires ps != [] && Separated(ps)
    ensures Separated(ps[1..])
  {
    forall k | 0 <= k < |ps[1..]| ensures Bounded(ps[1..], k) {
      assert Bounded(ps, k + 1);
    }
  }

  /** A match consumes exactly the rendering of its captures, and each
      capture fits its piece. */
  lemma {:induction false} MatchPiecesSound(ps: seq<Piece>, s: string, i: nat)
    requires i <= |s| && MatchPieces(ps, s, i).Some?
    ensures AllFit(ps, MatchPieces(ps, s, i).value)
    ensures OccursAt(s, Render(ps, MatchPieces(ps, s, i).value), i)
    decreases |ps|, 1
  {
    if ps == [] {
      assert s[i..i] == [];
    } else if ps[0].Literal? {
      LiteralSound(ps, s, i);
    } else {
      CaptureSound(ps, s, i);
    }
  }

  /** `MatchPiecesSound` over a leading literal. */
  lemma {:induction false} LiteralSound(ps: seq<Piece>, s: string, i: nat)
    requires i <= |s| && ps != [] && ps[0].Literal? && MatchPieces(ps, s, i).Some?
    ensures AllFit(ps, MatchPieces(ps, s, i).value)
    ensures OccursAt(s, Render(ps, MatchPieces(ps, s, i).value), i)
    decreases |ps|, 0
  {
    LiteralStep(ps, s, i);
    MatchPiecesSound(ps[1..], s, i + |ps[0].text|);
    LiteralStepSound(ps, s, i);
  }

  /** `MatchPiecesSound` over a leading capturing piece. */
  lemma {:induction false} CaptureSound(ps: seq<Piece>, s: string, i: nat)
    requires i <= |s| && ps != [] && !ps[0].Literal? && MatchPieces(ps, s, i).Some?
    ensures AllFit(ps, MatchPieces(ps, s, i).value)
    ensures OccursAt(s, Render(ps, MatchPieces(ps, s, i).value), i)
    decreases |ps|, 0
  {
    CaptureStepShape(ps, s, i);
    MatchPiecesSound(ps[1..], s, i + Take(ps[0], s, i).value);
    CaptureStepSound(ps, s, i);
  }

  /** A match over a leading literal: the literal is there and the rest
      matches right after it, with the same captures. */
  lemma LiteralStep(ps: seq<Piece>, s: string, i: nat)
    requires i <= |s| && ps != [] && ps[0].Literal? && MatchPieces(ps, s, i).Some?
    ensures OccursAt(s, ps[0].text, i)
    ensures MatchPieces(ps[1..], s, i + |ps[0].text|) == MatchPieces(ps, s, i)
  {
  }

  /** A match over a leading capturing piece: the piece takes `n`
      characters, the rest matches after them, and the first capture is
      what the piece took. */
  lemma CaptureStepShape(ps: seq<Piece>, s: string, i: nat)
    requires i <= |s| && ps != [] && !ps[0].Literal? && MatchPieces(ps, s, i).Some?
    ensures Take(ps[0], s, i).Some?
    ensures var n := Take(ps[0], s, i).value;
      && MatchPieces(ps[1..], s, i + n).Some?
      && MatchPieces(ps, s, i).value == [s[i..i + n]] + MatchPieces(ps[1..], s, i + n).value
  {
  }

  /** The soundness step over a leading literal. */
  lemma LiteralStepSound(ps: seq<Piece>, s: string, i: nat)
    requires i <= |s| && ps != [] && ps[0].Literal? && MatchPieces(ps, s, i).Some?
    requires var j := i + |ps[0].text|;
      j <= |s| && MatchPieces(ps[1..], s, j).Some? &&
      AllFit(ps[1..], MatchPieces(ps[1..], s, j).value) &&
      OccursAt(s, Render(ps[1..], MatchPieces(ps[1..], s, j).value), j)
    ensures AllFit(ps, MatchPieces(ps, s, i).value)
    ensures OccursAt(s, Render(ps, MatchPieces(ps, s, i).value), i)
  {
    var t := ps[0].text;
    LiteralStep(ps, s, i);
    var caps := MatchPieces(ps, s, i).value;
    OccursAtConcat(s, t, Render(ps[1..], caps), i);
  }

  /** The soundness step over a leading capturing piece. */
  lemma CaptureStepSound(ps: seq<Piece>, s: string, i: nat)
    requires i <= |s| && ps != [] && !ps[0].Literal? && MatchPieces(ps, s, i).Some?
    requires var j := i + Take(ps[0], s, i).value;
      MatchPieces(ps[1..], s, j).Some? &&
      AllFit(ps[1..], MatchPieces(ps[1..], s, j).value) &&
      OccursAt(s, Render(ps[1..], MatchPieces(ps[1..], s, j).value), j)
    ensures AllFit(ps, MatchPieces(ps, s, i).value)
    ensures OccursAt(s, Render(ps, MatchPieces(ps, s, i).value), i)
  {
    CaptureStepShape(ps, s, i);
    var n := Take(ps[0], s, i).value;
    var rest := MatchPieces(ps[1..], s, i + n).value;
    var caps := MatchPieces(ps, s, i).value;
    assert caps[0] == s[i..i + n] && caps[1..] == rest;
    OccursAtConcat(s, s[i..i + n], Render(ps[1..], rest), i);
  }

  lemma TakeLetters(s: string, i: nat, c: string)
    requires Fits(Letters, c) && OccursAt(s, c, i)
    requires i + |c| < |s| && !IsLetter(s[i + |c|])
    ensures Take(Letters, s, i) == Some(|c|)
  {
    assert forall k :: i <= k < i + |c| ==> s[k] == c[k - i];
    LetterRunIs(s, i, |c|);
  }

  lemma TakeDigits(lo: nat, hi: nat, s: string, i: nat, c: string)
    requires 1 <= lo <= hi && Fits(Digits(lo, hi), c) && OccursAt(s, c, i)
    requires lo == hi || (i + |c| < |s| && !IsDigit(s[i + |c|]))
    ensures Take(Digits(lo, hi), s, i) == Some(|c|)
  {
    assert forall k :: i <= k < i + |c| ==> s[k] == c[k - i];
    if lo < hi {
      DigitRunIs(s, i, |c|);
    }
  }

  /** A rendering that starts with a non-empty literal starts with that
      literal's first character. */
  lemma RenderHead(ps: seq<Piece>, caps: seq<string>, s: string, j: nat)
    requires ps != [] && ps[0].Literal? && ps[0].text != []
    requires |caps| == CaptureCount(ps) && OccursAt(s, Render(ps, caps), j)
    ensures j < |s| && s[j] == ps[0].text[0]
  {
    var r := Render(ps, caps);
    assert r[0] == ps[0].text[0];
    assert s[j..j + |r|][0] == r[0];
  }

  /** The matcher over a leading literal that is there. */
  lemma LiteralStepBack(ps: seq<Piece>, s: string, i: nat)
    requires i <= |s| && ps != [] && ps[0].Literal? && OccursAt(s, ps[0].text, i)
    ensures MatchPieces(ps, s, i) == MatchPieces(ps[1..], s, i + |ps[0].text|)
  {
  }

  /** The matcher over a leading capturing piece that takes `n` characters. */
  lemma CaptureStepBack(ps: seq<Piece>, s: string, i: nat, n: nat, rest: seq<string>)
    requires i <= |s| && ps != [] && !ps[0].Literal? && Take(ps[0], s, i) == Some(n)
    requires MatchPieces(ps[1..], s, i + n) == Some(rest)
    ensures MatchPieces(ps, s, i) == Some([s[i..i + n]] + rest)
  {
  }

  /** A capturing piece takes exactly a fitting text that stands at `i`
      when what follows cannot extend it. */
  lemma TakeFitting(ps: seq<Piece>, c: string, s: string, i: nat)
    requires ps != [] && Capturing(ps[0]) && Bounded(ps, 0)
    requires i <= |s| && Fits(ps[0], c) && OccursAt(s, c, i)
    requires 1 < |ps| && ps[1].Literal? && ps[1].text != [] ==>
      i + |c| < |s| && s[i + |c|] == ps[1].text[0]
    ensures Take(ps[0], s, i) == Some(|c|)
  {
    match ps[0]
    case Letters =>
      TakeLetters(s, i, c);
    case Digits(lo, hi) =>
      TakeDigits(lo, hi, s, i, c);
  }

  lemma ConsTail<T>(xs: seq<T>)
    requires xs != []
    ensures [xs[0]] + xs[1..] == xs
  {
  }

  /** Rendering and fitting over a leading literal. */
  lemma UnfoldLiteral(ps: seq<Piece>, caps: seq<string>)
    requires ps != [] && ps[0].Literal? && |caps| == CaptureCount(ps)
    ensures |caps| == CaptureCount(ps[1..])
    ensures Render(ps, caps) == ps[0].text + Render(ps[1..], caps)
    ensures AllFit(ps, caps) == AllFit(ps[1..], caps)
  {
  }

  /** Rendering and fitting over a leading capturing piece. */
  lemma UnfoldCapture(ps: seq<Piece>, caps: seq<string>)
    requires ps != [] && !ps[0].Literal? && |caps| == CaptureCount(ps)
    ensures caps != [] && |caps[1..]| == CaptureCount(ps[1..])
    ensures Render(ps, caps) == caps[0] + Render(ps[1..], caps[1..])
    ensures AllFit(ps, caps) == (Fits(ps[0], caps[0]) && AllFit(ps[1..], caps[1..]))
  {
  }

  /** One capturing step of the matcher, given that the rest matches. */
  lemma CaptureStep(ps: seq<Piece>, caps: seq<string>, s: string, i: nat)
    requires ps != [] && Capturing(ps[0]) && Bounded(ps, 0)
    requires i <= |s| && |caps| == CaptureCount(ps) && Fits(ps[0], caps[0])
    requires OccursAt(s, caps[0], i)
    requires i + |caps[0]| <= |s| && MatchPieces(ps[1..], s, i + |caps[0]|) == Some(caps[1..])
    requires 1 < |ps| && ps[1].Literal? && ps[1].text != [] ==>
      i + |caps[0]| < |s| && s[i + |caps[0]|] == ps[1].text[0]
    ensures MatchPieces(ps, s, i) == Some(caps)
  {
    var c := caps[0];
    TakeFitting(ps, c, s, i);
    CaptureStepBack(ps, s, i, |c|, caps[1..]);
    ConsTail(caps);
  }

  /** Where the rendering of fitting captures stands in `s`, the matcher finds
      exactly those captures (on a separated pattern). */
  lemma {:induction false} MatchPiecesComplete(ps: seq<Piece>, caps: seq<string>, s: string, i: nat)
    requires i <= |s| && |caps| == CaptureCount(ps)
    requires Separated(ps) && AllFit(ps, caps)
    requires OccursAt(s, Render(ps, caps), i)
    ensures MatchPieces(ps, s, i) == Some(caps)
    decreases |ps|, 1
  {
    if ps == [] {
      assert caps == [];
    } else if ps[0].Literal? {
      LiteralComplete(ps, caps, s, i);
    } else {
      CaptureComplete(ps, caps, s, i);
    }
  }

  /** `MatchPiecesComplete` over a leading literal. */
  lemma {:induction false} LiteralComplete(ps: seq<Piece>, caps: seq<string>, s: string, i: nat)
    requires i <= |s| && ps != [] && ps[0].Literal? && |caps| == CaptureCount(ps)
    requires Separated(ps) && AllFit(ps, caps)
    requires OccursAt(s, Render(ps, caps), i)
    ensures MatchPieces(ps, s, i) == Some(caps)
    decreases |ps|, 0
  {
    var t := ps[0].text;
    UnfoldLiteral(ps, caps);
    OccursAtConcat(s, t, Render(ps[1..], caps), i);
    SeparatedTail(ps);
    MatchPiecesComplete(ps[1..], caps, s, i + |t|);
    LiteralStepBack(ps, s, i);
  }

  /** `MatchPiecesComplete` over a leading capturing piece. */
  lemma {:induction false} CaptureComplete(ps: seq<Piece>, caps: seq<string>, s: string, i: nat)
    requires i <= |s| && ps != [] && !ps[0].Literal? && |caps| == CaptureCount(ps)
    requires Separated(ps) && AllFit(ps, caps)
    requires OccursAt(s, Render(ps, caps), i)
    ensures MatchPieces(ps, s, i) == Some(caps)
    decreases |ps|, 0
  {
    UnfoldCapture(ps, caps);
    var c := caps[0];
    OccursAtConcat(s, c, Render(ps[1..], caps[1..]), i);
    SeparatedTail(ps);
    MatchPiecesComplete(ps[1..], caps[1..], s, i + |c|);
    assert Bounded(ps, 0);
    if 1 < |ps| && ps[1].Literal? && ps[1].text != [] {
      RenderHead(ps[1..], caps[1..], s, i + |c|);
    }
    CaptureStep(ps, caps, s, i);
  }
}

=== FILE: TemplateFiller.dfy ===
/** The template filler: `replace_header_text` (main.py:44-49) and
    `generate_doc` (main.py:64-99). A Word document is modelled as its body
    paragraphs and the paragraphs of each section's primary header (what
    `section.header` returns); a paragraph is a sequence of runs, each with
    its text and its bold and underline flags. */
module TemplateFiller {
  import opened Wrappers
  import opened TextOps

  // ---------------------------------------------------------------------
  // Documents as data

  /** A run of text; `bold` and `underline` false stand for "no direct
      formatting" (python-docx's `None`). */
  datatype Run = Run(text: string, bold: bool, underline: bool)

  datatype Paragraph = Paragraph(runs: seq<Run>)

  /** `paragraph.text`: the texts of the runs, in order. */
  function RunsText(runs: seq<Run>): string {
    if runs == [] then "" else runs[0].text + RunsText(runs[1..])
  }

  function Text(p: Paragraph): string {
    RunsText(p.runs)
  }

  const DatePlaceholder := "<<MEETING_DATE>>"
  const UnderlinedDatePlaceholder := "<<MEETING_DATE_u>>"
  const AgendaPlaceholder := "<<AGENDA>>"

  // ---------------------------------------------------------------------
  // Placeholder substitution

  /** One paragraph after a substitution pass: if its text contains the
      placeholder, it is cleared and holds one run with every occurrence
      replaced, underlined when the pass asks for it; otherwise it is left
      alone. */
  function Substituted(p: Paragraph, placeholder: string, value: string, underline: bool): Paragraph {
    var t := Text(p);
    if Contains(t, placeholder) then Paragraph([Run(Replace(t, placeholder, value), false, underline)])
    else p
  }

  /** A substitution pass over a sequence of paragraphs. */
  function SubstituteAll(ps: seq<Paragraph>, placeholder: string, value: string, underline: bool)
    : seq<Paragraph>
  {
    seq(|ps|, k requires 0 <= k < |ps| => Substituted(ps[k], placeholder, value, underline))
  }

  /** The header pass: a plain substitution in every primary header. */
  function SubstituteHeaders(hs: seq<seq<Paragraph>>, placeholder: string, value: string)
    : seq<seq<Paragraph>>
  {
    seq(|hs|, k requires 0 <= k < |hs| => SubstituteAll(hs[k], placeholder, value, false))
  }

  lemma SingleRunText(r: Run)
    ensures Text(Paragraph([r])) == r.text
  {
    assert [r][1..] == [];
    assert RunsText([r]) == r.text + RunsText([]);
  }

  /** What a substitution pass does to one paragraph. Cutting the old text
      at the placeholder gives pieces free of it; joined with the
      placeholder they give back the old text, and joined with the value
      they give the new one, held in a single run that carries exactly the
      requested underline and no bold. A paragraph without the placeholder
      is untouched. */
  lemma SubstitutedSpec(p: Paragraph, placeholder: string, value: string, underline: bool)
    requires placeholder != []
    ensures var q := Substituted(p, placeholder, value, underline);
      var pieces := Split(Text(p), placeholder);
      if Contains(Text(p), placeholder) then
        && |q.runs| == 1 && !q.runs[0].bold && q.runs[0].underline == underline
        && Text(q) == Join(pieces, value)
        && Text(p) == Join(pieces, placeholder)
        && forall k :: 0 <= k < |pieces| ==> !Contains(pieces[k], placeholder)
      else q == p
  {
    var t := Text(p);
    if Contains(t, placeholder) {
      SingleRunText(Run(Replace(t, placeholder, value), false, underline));
      ReplaceJoinsSplit(t, placeholder, value);
      JoinSplit(t, placeholder);
      SplitPiecesFree(t, placeholder);
    }
  }

  // ---------------------------------------------------------------------
  // Agenda insertion

  /** The index of the first paragraph whose text contains `placeholder`. */
  function FirstContaining(ps: seq<Paragraph>, placeholder: string): (r: Option<nat>)
    ensures r.Some? ==> r.value < |ps| && Contains(Text(ps[r.value]), placeholder)
    ensures r.Some? ==> forall k :: 0 <= k < r.value ==> !Contains(Text(ps[k]), placeholder)
    ensures r.None? ==> forall k :: 0 <= k < |ps| ==> !Contains(Text(ps[k]), placeholder)
  {
    if ps == [] then None
    else if Contains(Text(ps[0]), placeholder) then Some(0)
    else
      match FirstContaining(ps[1..], placeholder)
      case None => None
      case Some(i) => Some(i + 1)
  }

  /** The paragraph made for one agenda item: a single bold run. */
  function AgendaParagraph(item: string): Paragraph {
    Paragraph([Run(item, true, false)])
  }

  function AgendaParagraphs(items: seq<string>): seq<Paragraph> {
    seq(|items|, k requires 0 <= k < |items| => AgendaParagraph(items[k]))
  }

  /** The body after the agenda step: the first `<<AGENDA>>` paragraph is
      replaced by the item paragraphs; without one the body is unchanged. */
  function WithAgenda(ps: seq<Paragraph>, items: seq<string>): seq<Paragraph> {
    match FirstContaining(ps, AgendaPlaceholder)
    case None => ps
    case Some(i) => ps[..i] + AgendaParagraphs(items) + ps[i + 1..]
  }

  /** The agenda step, when a placeholder paragraph exists: exactly one bold
      paragraph per item, in the items' order, stands where the first
      placeholder paragraph stood, and taking them out leaves the other
      paragraphs, later placeholders included, in their order. */
  lemma WithAgendaInserts(ps: seq<Paragraph>, items: seq<string>)
    requires FirstContaining(ps, AgendaPlaceholder).Some?
    ensures var i := FirstContaining(ps, AgendaPlaceholder).value;
      var r := WithAgenda(ps, items);
      && |r| == |ps| - 1 + |items|
      && (forall k :: 0 <= k < |items| ==>
            && |r[i + k].runs| == 1 && r[i + k].runs[0].bold && !r[i + k].runs[0].underline
            && Text(r[i + k]) == items[k])
      && r[..i] + r[i + |items|..] == ps[..i] + ps[i + 1..]
  {
    var i := FirstContaining(ps, AgendaPlaceholder).value;
    var r := WithAgenda(ps, items);
    var a := AgendaParagraphs(items);
    assert r == ps[..i] + a + ps[i + 1..];
    forall k | 0 <= k < |items|
      ensures |r[i + k].runs| == 1 && r[i + k].runs[0].bold && !r[i + k].runs[0].underline
      ensures Text(r[i + k]) == items[k]
    {
      assert r[i + k] == a[k] == AgendaParagraph(items[k]);
      SingleRunText(Run(items[k], true, false));
    }
    assert r[..i] == ps[..i];
    assert r[i + |items|..] == ps[i + 1..];
  }

  /** Without a placeholder paragraph the agenda step changes nothing. */
  lemma WithAgendaWithoutPlaceholder(ps: seq<Paragraph>, items: seq<string>)
    requires forall k :: 0 <= k < |ps| ==> !Contains(Text(ps[k]), AgendaPlaceholder)
    ensures WithAgenda(ps, items) == ps
  {
  }

  /** One `insert_paragraph_before` of the agenda loop: the `j`-th item's
      paragraph goes in front of the placeholder, after those already in. */
  lemma InsertStep(ps: seq<Paragraph>, i: nat, items: seq<string>, j: nat)
    requires i < |ps| && j < |items|
    ensures var b := ps[..i] + AgendaParagraphs(items[..j]) + ps[i..];
      b[..i + j] + [AgendaParagraph(items[j])] + b[i + j..]
        == ps[..i] + AgendaParagraphs(items[..j + 1]) + ps[i..]
  {
    var a := AgendaParagraphs(items[..j]);
    var a' := AgendaParagraphs(items[..j + 1]);
    assert a' == a + [AgendaParagraph(items[j])];
    var b := ps[..i] + a + ps[i..];
    assert b[..i + j] == ps[..i] + a;
    assert b[i + j..] == ps[i..];
  }

  /** Removing the placeholder paragraph, which now follows the items. */
  lemma RemoveStep(ps: seq<Paragraph>, i: nat, items: seq<string>)
    requires i < |ps|
    ensures var b := ps[..i] + AgendaParagraphs(items[..|items|]) + ps[i..];
      b[..i + |items|] + b[i + |items| + 1..] == ps[..i] + AgendaParagraphs(items) + ps[i + 1..]
  {
    assert items[..|items|] == items;
    var b := ps[..i] + AgendaParagraphs(items) + ps[i..];
    assert b[..i + |items|] == ps[..i] + AgendaParagraphs(items);
    assert b[i + |items| + 1..] == ps[i + 1..];
  }

  // ---------------------------------------------------------------------
  // The output file name

  const OutputPrefix := "MoM of the MBA Committee meeting dated "
  const OutputSuffix := ".docx"

  /** `output_path` of main.py:97. */
  function OutputName(date: string): string {
    OutputPrefix + date + OutputSuffix
  }

  /** The date a file name was made from, if it has the form `OutputName`
      gives. */
  function DateOfOutputName(name: string): (r: Option<string>)
    ensures r.Some? ==> |r.value| + |OutputPrefix| + |OutputSuffix| == |name|
  {
    if |name| >= |OutputPrefix| + |OutputSuffix|
      && name[..|OutputPrefix|] == OutputPrefix
      && name[|name| - |OutputSuffix|..] == OutputSuffix
    then Some(name[|OutputPrefix|..|name| - |OutputSuffix|])
    else None
  }

  /** The name determines the date: reading it back gives the date. */
  lemma OutputNameRoundTrip(date: string)
    ensures DateOfOutputName(OutputName(date)) == Some(date)
  {
    var name := OutputName(date);
    assert name[..|OutputPrefix|] == OutputPrefix;
    assert name[|name| - |OutputSuffix|..] == OutputSuffix;
    assert name[|OutputPrefix|..|name| - |OutputSuffix|] == date;
  }

  /** Every name of that form is the output name of the date read back. */
  lemma OutputNameOfDate(name: string)
    requires DateOfOutputName(name).Some?
    ensures OutputName(DateOfOutputName(name).value) == name
  {
    var d := DateOfOutputName(name).value;
    assert name == name[..|OutputPrefix|] + d + name[|name| - |OutputSuffix|..];
  }

  // ---------------------------------------------------------------------
  // The document, updated in place

  class Document {
    var body: seq<Paragraph>
    /** The paragraphs of each section's primary header, one entry per
        section; a linked header is an independent copy here, and first-page
        and even-page headers are not part of the model. */
    var headers: seq<seq<Paragraph>>

    constructor (body: seq<Paragraph>, headers: seq<seq<Paragraph>>)
      ensures this.body == body && this.headers == headers
    {
      this.body := body;
      this.headers := headers;
    }

    /** One of the date loops of main.py:68-80: every body paragraph whose
        text contains `placeholder` is cleared and given one run with the
        replaced text, underlined when `underline` holds. */
    method ReplaceBodyText(placeholder: string, replacement: string, underline: bool)
      modifies this
      ensures body == SubstituteAll(old(body), placeholder, replacement, underline)
      ensures headers == old(headers)
    {
      var i := 0;
      while i < |body|
        invariant 0 <= i <= |body| == |old(body)|
        invariant forall k :: 0 <= k < i ==>
          body[k] == Substituted(old(body)[k], placeholder, replacement, underline)
        invariant forall k :: i <= k < |body| ==> body[k] == old(body)[k]
        invariant headers == old(headers)
      {
        var text := Text(body[i]);
        if Contains(text, placeholder) {
          var replaced := Replace(text, placeholder, replacement);
          body := body[i := Paragraph([Run(replaced, false, underline)])];
        }
        i := i + 1;
      }
    }

    /** `replace_header_text` (main.py:44-49): in every section's primary header,
        each paragraph containing `placeholder` gets its text set to the
        replaced text, which leaves one plain run. */
    method ReplaceHeaderText(placeholder: string, replacement: string)
      modifies this
      ensures headers == SubstituteHeaders(old(headers), placeholder, replacement)
      ensures body == old(body)
    {
      var s := 0;
      while s < |headers|
        invariant 0 <= s <= |headers| == |old(headers)|
        invariant forall k :: 0 <= k < s ==>
          headers[k] == SubstituteAll(old(headers)[k], placeholder, replacement, false)
        invariant forall k :: s <= k < |headers| ==> headers[k] == old(headers)[k]
        invariant body == old(body)
      {
        var i := 0;
        while i < |headers[s]|
          invariant |headers| == |old(headers)| && s < |headers|
          invariant 0 <= i <= |headers[s]| == |old(headers)[s]|
          invariant forall k :: 0 <= k < s ==>
            headers[k] == SubstituteAll(old(headers)[k], placeholder, replacement, false)
          invariant forall k :: s < k < |headers| ==> headers[k] == old(headers)[k]
          invariant forall k :: 0 <= k < i ==>
            headers[s][k] == Substituted(old(headers)[s][k], placeholder, replacement, false)
          invariant forall k :: i <= k < |headers[s]| ==> headers[s][k] == old(headers)[s][k]
          invariant body == old(body)
        {
          var text := Text(headers[s][i]);
          if Contains(text, placeholder) {
            var replaced := Replace(text, placeholder, replacement);
            headers := headers[s := headers[s][i := Paragraph([Run(replaced, false, false)])]];
          }
          i := i + 1;
        }
        s := s + 1;
      }
    }

    /** The agenda loop of main.py:86-95: at the first paragraph containing
        `<<AGENDA>>`, put the item paragraphs in its place and stop. */
    method InsertAgenda(items: seq<string>)
      modifies this
      ensures body == WithAgenda(old(body), items)
      ensures headers == old(headers)
    {
      var i := 0;
      while i < |body|
        invariant 0 <= i <= |body|
        invariant body == old(body) && headers == old(headers)
        invariant forall k :: 0 <= k < i ==> !Contains(Text(body[k]), AgendaPlaceholder)
      {
        if Contains(Text(body[i]), AgendaPlaceholder) {
          FirstContainingIs(body, AgendaPlaceholder, i);
          ReplaceWithItems(i, items);
          return;
        }
        i := i + 1;
      }
      WithAgendaWithoutPlaceholder(body, items);
    }

    /** The body of the `if` at main.py:87-95: one bold paragraph per item
        is inserted before paragraph `i`, in order, and then paragraph `i`
        is removed. */
    method ReplaceWithItems(i: nat, items: seq<string>)
      requires i < |body|
      modifies this
      ensures body == old(body)[..i] + AgendaParagraphs(items) + old(body)[i + 1..]
      ensures headers == old(headers)
    {
      var j := 0;
      while j < |items|
        invariant 0 <= j <= |items|
        invariant body == old(body)[..i] + AgendaParagraphs(items[..j]) + old(body)[i..]
        invariant headers == old(headers)
      {
        InsertStep(old(body), i, items, j);
        body := body[..i + j] + [AgendaParagraph(items[j])] + body[i + j..];
        j := j + 1;
      }
      RemoveStep(old(body), i, items);
      body := body[..i + |items|] + body[i + |items| + 1..];
    }

    /** `generate_doc` (main.py:64-99) on a loaded template: the two body
        date passes, the header pass, the agenda step, and the name the
        document is saved under. */
    method Generate(date: string, items: seq<string>) returns (outputPath: string)
      modifies this
      ensures body == WithAgenda(
        SubstituteAll(SubstituteAll(old(body), DatePlaceholder, date, false),
                      UnderlinedDatePlaceholder, date, true),
        items)
      ensures headers == SubstituteHeaders(old(headers), DatePlaceholder, date)
      ensures outputPath == OutputName(date)
    {
      ReplaceBodyText(DatePlaceholder, date, false);
      ReplaceBodyText(UnderlinedDatePlaceholder, date, true);
      ReplaceHeaderText(DatePlaceholder, date);
      InsertAgenda(items);
      outputPath := OutputName(date);
    }
  }

  /** `FirstContaining` is the first index whose paragraph contains the
      placeholder. */
  lemma FirstContainingIs(ps: seq<Paragraph>, placeholder: string, i: nat)
    requires i < |ps| && Contains(Text(ps[i]), placeholder)
    requires forall k :: 0 <= k < i ==> !Contains(Text(ps[k]), placeholder)
    ensures FirstContaining(ps, placeholder) == Some(i)
  {
  }
}

=== FILE: TextOps.dfy ===
/** The Python `str` operations the meeting-minutes generator calls: substring
    test (`in`), `replace`, `" ".join`, `strip()` and whitespace `split()`,
    together with the character classes its regular expressions use. Three
    further definitions serve as building blocks: `IndexFrom` is the scan
    `re.search` makes for a literal, `Split(s, sep)` is the reference
    definition `replace` is proved against, and `TrimStart`/`TrimEnd` are
    the two halves of `strip`. */
module TextOps {
  import opened Wrappers

  /** `[0-9]`. */
  predicate IsDigit(c: char) { '0' <= c <= '9' }

  /** `[A-Za-z]`. */
  predicate IsLetter(c: char) { 'A' <= c <= 'Z' || 'a' <= c <= 'z' }

  predicate AllDigits(s: string) { forall i :: 0 <= i < |s| ==> IsDigit(s[i]) }

  predicate AllLetters(s: string) { forall i :: 0 <= i < |s| ==> IsLetter(s[i]) }

  /** Python's `str.isspace` for one character (the characters `strip()`,
      `split()` and the regex class `\s` treat as whitespace). */
  predicate IsSpace(c: char) {
    var n := c as int;
    (0x09 <= n <= 0x0D) || (0x1C <= n <= 0x20) || n == 0x85 || n == 0xA0
    || n == 0x1680 || (0x2000 <= n <= 0x200A) || n == 0x2028 || n == 0x2029
    || n == 0x202F || n == 0x205F || n == 0x3000
  }

  function ToLower(c: char): char {
    if 'A' <= c <= 'Z' then (c as int + 32) as char else c
  }

  function Lower(s: string): (r: string)
    ensures |r| == |s|
  {
    if s == [] then [] else [ToLower(s[0])] + Lower(s[1..])
  }

  /** `t` is `s` lowered character by character. */
  predicate LowerOf(s: string, t: string) {
    |s| == |t| && forall i :: 0 <= i < |s| ==> ToLower(s[i]) == t[i]
  }

  /** `lower` works character by character. */
  lemma {:induction false} LowerIs(s: string, t: string)
    requires LowerOf(s, t)
    ensures Lower(s) == t
  {
    if s != [] {
      LowerIs(s[1..], t[1..]);
    }
  }

  predicate OccursAt(s: string, pat: string, i: int) {
    0 <= i && i + |pat| <= |s| && s[i..i + |pat|] == pat
  }

  /** Python's `pat in s`. */
  predicate Contains(s: string, pat: string) {
    exists i :: 0 <= i <= |s| - |pat| && OccursAt(s, pat, i)
  }

  /** The first occurrence of `pat` at or after `i`: the scan `re.search`
      makes for a literal pattern. */
  function IndexFrom(s: string, pat: string, i: nat): (r: Option<nat>)
    requires i <= |s|
    ensures r.Some? ==> i <= r.value && OccursAt(s, pat, r.value)
    ensures r.Some? ==> forall q :: i <= q < r.value ==> !OccursAt(s, pat, q)
    ensures r.None? ==> forall q :: i <= q ==> !OccursAt(s, pat, q)
    decreases |s| - i
  {
    if OccursAt(s, pat, i) then Some(i)
    else if i == |s| then None
    else IndexFrom(s, pat, i + 1)
  }

  lemma IndexFromZero(s: string, pat: string)
    ensures IndexFrom(s, pat, 0).Some? <==> Contains(s, pat)
  {
    var r := IndexFrom(s, pat, 0);
    if r.Some? {
      assert OccursAt(s, pat, r.value);
    }
  }

  /** Python's `s.replace(pat, rep)`: every non-overlapping occurrence, left to
      right, is replaced; an empty pattern puts `rep` around every character. */
  function Replace(s: string, pat: string, rep: string): string
    decreases |s|
  {
    if pat == [] then
      (if s == [] then rep else rep + [s[0]] + Replace(s[1..], pat, rep))
    else if |s| < |pat| then s
    else if s[..|pat|] == pat then rep + Replace(s[|pat|..], pat, rep)
    else [s[0]] + Replace(s[1..], pat, rep)
  }

  /** The pieces between the occurrences of a non-empty `sep`, found left to
      right, as `s.split(sep)` returns them; the reference definition for
      `replace` (`ReplaceJoinsSplit`). */
  function Split(s: string, sep: string): (parts: seq<string>)
    requires sep != []
    ensures |parts| >= 1
    ensures |parts[0]| <= |s| && parts[0] == s[..|parts[0]|]
    decreases |s|
  {
    if |s| < |sep| then [s]
    else if s[..|sep|] == sep then [[]] + Split(s[|sep|..], sep)
    else
      var rest := Split(s[1..], sep);
      [[s[0]] + rest[0]] + rest[1..]
  }

  /** Python's `sep.join(parts)`. */
  function Join(parts: seq<string>, sep: string): string {
    if parts == [] then []
    else if |parts| == 1 then parts[0]
    else parts[0] + sep + Join(parts[1..], sep)
  }

  lemma JoinConsHead(c: char, parts: seq<string>, sep: string)
    requires |parts| >= 1
    ensures Join([[c] + parts[0]] + parts[1..], sep) == [c] + Join(parts, sep)
  {
    var ps := [[c] + parts[0]] + parts[1..];
    assert ps[1..] == parts[1..];
  }

  /** Joining the pieces of a split with the separator gives the string back. */
  lemma {:induction false} JoinSplit(s: string, sep: string)
    requires sep != []
    ensures Join(Split(s, sep), sep) == s
    decreases |s|
  {
    if |s| < |sep| {
    } else if s[..|sep|] == sep {
      var rest := Split(s[|sep|..], sep);
      JoinSplit(s[|sep|..], sep);
      assert ([[]] + rest)[1..] == rest;
      assert s == sep + s[|sep|..];
    } else {
      var rest := Split(s[1..], sep);
      JoinSplit(s[1..], sep);
      JoinConsHead(s[0], rest, sep);
      assert s == [s[0]] + s[1..];
    }
  }

  /** No piece of a split contains the separator. */
  lemma {:induction false} SplitPiecesFree(s: string, sep: string)
    requires sep != []
    ensures forall k :: 0 <= k < |Split(s, sep)| ==> !Contains(Split(s, sep)[k], sep)
    decreases |s|
  {
    var parts := Split(s, sep);
    if |s| < |sep| {
    } else if s[..|sep|] == sep {
      var rest := Split(s[|sep|..], sep);
      SplitPiecesFree(s[|sep|..], sep);
      assert parts == [[]] + rest;
      forall k | 0 <= k < |parts| ensures !Contains(parts[k], sep) {
        if k > 0 { assert parts[k] == rest[k - 1]; }
      }
    } else {
      var rest := Split(s[1..], sep);
      SplitPiecesFree(s[1..], sep);
      var head := [s[0]] + rest[0];
      assert parts == [head] + rest[1..];
      assert head == s[..|head|];
      forall i | 0 <= i <= |head| - |sep| ensures !OccursAt(head, sep, i) {
        if i == 0 {
          assert head[..|sep|] == s[..|sep|];
        } else {
          assert head[i..i + |sep|] == rest[0][i - 1..i - 1 + |sep|];
          assert !OccursAt(rest[0], sep, i - 1);
        }
      }
      forall k | 0 <= k < |parts| ensures !Contains(parts[k], sep) {
        if k > 0 { assert parts[k] == rest[k]; }
      }
    }
  }

  /** `s.replace(pat, rep) == rep.join(s.split(pat))`: replacing is splitting at
      every occurrence and joining with the replacement. */
  lemma {:induction false} ReplaceJoinsSplit(s: string, pat: string, rep: string)
    requires pat != []
    ensures Replace(s, pat, rep) == Join(Split(s, pat), rep)
    decreases |s|
  {
    if |s| < |pat| {
    } else if s[..|pat|] == pat {
      var rest := Split(s[|pat|..], pat);
      ReplaceJoinsSplit(s[|pat|..], pat, rep);
      assert ([[]] + rest)[1..] == rest;
    } else {
      var rest := Split(s[1..], pat);
      ReplaceJoinsSplit(s[1..], pat, rep);
      JoinConsHead(s[0], rest, rep);
    }
  }

  /** Length of the run of `[A-Za-z]` starting at `i` (as far as the greedy
      regex `[A-Za-z]+` reaches). */
  function LetterRun(s: string, i: nat): (n: nat)
    requires i <= |s|
    ensures i + n <= |s|
    ensures forall k :: i <= k < i + n ==> IsLetter(s[k])
    ensures i + n < |s| ==> !IsLetter(s[i + n])
    decreases |s| - i
  {
    if i < |s| && IsLetter(s[i]) then 1 + LetterRun(s, i + 1) else 0
  }

  /** Length of the run of `[0-9]` starting at `i` (greedy `\d+`). */
  function DigitRun(s: string, i: nat): (n: nat)
    requires i <= |s|
    ensures i + n <= |s|
    ensures forall k :: i <= k < i + n ==> IsDigit(s[k])
    ensures i + n < |s| ==> !IsDigit(s[i + n])
    decreases |s| - i
  {
    if i < |s| && IsDigit(s[i]) then 1 + DigitRun(s, i + 1) else 0
  }

  /** Length of the run of whitespace starting at `i` (greedy `\s+`). */
  function SpaceRun(s: string, i: nat): (n: nat)
    requires i <= |s|
    ensures i + n <= |s|
    ensures forall k :: i <= k < i + n ==> IsSpace(s[k])
    ensures i + n < |s| ==> !IsSpace(s[i + n])
    decreases |s| - i
  {
    if i < |s| && IsSpace(s[i]) then 1 + SpaceRun(s, i + 1) else 0
  }

  lemma LetterRunIs(s: string, i: nat, n: nat)
    requires i + n <= |s|
    requires forall k :: i <= k < i + n ==> IsLetter(s[k])
    requires i + n == |s| || !IsLetter(s[i + n])
    ensures LetterRun(s, i) == n
  {
  }

  lemma DigitRunIs(s: string, i: nat, n: nat)
    requires i + n <= |s|
    requires forall k :: i <= k < i + n ==> IsDigit(s[k])
    requires i + n == |s| || !IsDigit(s[i + n])
    ensures DigitRun(s, i) == n
  {
  }

  lemma SpaceRunIs(s: string, i: nat, n: nat)
    requires i + n <= |s|
    requires forall k :: i <= k < i + n ==> IsSpace(s[k])
    requires i + n == |s| || !IsSpace(s[i + n])
    ensures SpaceRun(s, i) == n
  {
  }

  /** An occurrence of `a + b` is an occurrence of `a` directly followed by
      one of `b`. */
  lemma OccursAtConcat(s: string, a: string, b: string, i: int)
    ensures OccursAt(s, a + b, i) <==> OccursAt(s, a, i) && OccursAt(s, b, i + |a|)
  {
    if OccursAt(s, a + b, i) {
      assert s[i..i + |a|] == (a + b)[..|a|];
      assert s[i + |a|..i + |a| + |b|] == (a + b)[|a|..];
    }
    if OccursAt(s, a, i) && OccursAt(s, b, i + |a|) {
      assert s[i..i + |a + b|] == s[i..i + |a|] + s[i + |a|..i + |a| + |b|];
    }
  }

  /** An occurrence inside `s` is still one inside any extension `s + u`. */
  lemma OccursAtExtend(s: string, u: string, pat: string, i: int)
    requires OccursAt(s, pat, i)
    ensures OccursAt(s + u, pat, i)
  {
    assert (s + u)[i..i + |pat|] == s[i..i + |pat|];
  }

  /** An occurrence in `s + u` that ends inside `s` is one in `s`. */
  lemma OccursAtPrefix(s: string, u: string, pat: string, i: int)
    requires OccursAt(s + u, pat, i) && i + |pat| <= |s|
    ensures OccursAt(s, pat, i)
  {
    assert (s + u)[i..i + |pat|] == s[i..i + |pat|];
  }

  /** An occurrence starts with the pattern's first character. */
  lemma OccursAtHead(s: string, pat: string, i: int)
    requires pat != []
    ensures OccursAt(s, pat, i) ==> s[i] == pat[0]
  {
    if OccursAt(s, pat, i) {
      assert s[i] == s[i..i + |pat|][0];
    }
  }

  /** An occurrence inside a slice is an occurrence in the whole text. */
  lemma OccursAtSlice(s: string, p: nat, q: nat, pat: string, j: int)
    requires p <= q <= |s|
    ensures OccursAt(s[p..q], pat, j) ==> OccursAt(s, pat, p + j)
  {
    if OccursAt(s[p..q], pat, j) {
      var u := s[p..q];
      var w := s[p + j..p + j + |pat|];
      forall m | 0 <= m < |pat| ensures w[m] == pat[m] {
        assert w[m] == s[p + j + m] == u[j + m];
        assert pat[m] == u[j..j + |pat|][m];
      }
    }
  }

  /** A prefix of a slice stands in the whole text where the slice starts. */
  lemma SlicePrefixOccurs(s: string, p: nat, q: nat, t: string)
    requires p <= q <= |s| && |t| <= q - p && t == s[p..q][..|t|]
    ensures OccursAt(s, t, p)
  {
    assert s[p..p + |t|] == s[p..q][..|t|];
  }

  /** An occurrence that lies inside another occurrence is an occurrence
      in the outer pattern, at the offset between the two. */
  lemma OccursAtWithin(s: string, outer: string, q: int, pat: string, p: int)
    requires OccursAt(s, outer, q) && OccursAt(s, pat, p)
    requires q <= p && p + |pat| <= q + |outer|
    ensures OccursAt(outer, pat, p - q)
  {
    assert outer == s[q..q + |outer|];
    assert forall j :: 0 <= j < |pat| ==> outer[p - q + j] == s[p + j] == pat[j];
    assert outer[p - q..p - q + |pat|] == pat;
  }

  /** Whitespace dropped at the start: the first half of `strip()`. */
  function TrimStart(s: string): (r: string)
    ensures |r| <= |s| && r == s[|s| - |r|..]
    ensures r != [] ==> !IsSpace(r[0])
    ensures forall i :: 0 <= i < |s| - |r| ==> IsSpace(s[i])
  {
    if s != [] && IsSpace(s[0]) then TrimStart(s[1..]) else s
  }

  /** Whitespace dropped at the end: the second half of `strip()`. */
  function TrimEnd(s: string): (r: string)
    ensures |r| <= |s| && r == s[..|r|]
    ensures r != [] ==> !IsSpace(r[|r| - 1])
    ensures forall i :: |r| <= i < |s| ==> IsSpace(s[i])
  {
    if s != [] && IsSpace(s[|s| - 1]) then TrimEnd(s[..|s| - 1]) else s
  }

  /** Nothing to strip in front of a text that starts with a non-space. */
  lemma TrimStartAtWord(s: string)
    requires s != [] && !IsSpace(s[0])
    ensures TrimStart(s) == s
  {
  }

  /** Trimming the end keeps the first two characters when the second is no space. */
  lemma TrimEndKeepsTwo(s: string)
    requires |s| >= 2 && !IsSpace(s[1])
    ensures |TrimEnd(s)| >= 2 && TrimEnd(s)[0] == s[0] && TrimEnd(s)[1] == s[1]
  {
  }

  /** Python's `str.strip()`: the slice of `s` left after dropping whitespace at
      both ends. */
  function Strip(s: string): (r: string)
    ensures r != [] ==> !IsSpace(r[0]) && !IsSpace(r[|r| - 1])
  {
    var u := TrimStart(s);
    var r := TrimEnd(u);
    assert r != [] ==> r[0] == u[0];
    r
  }

  /** Number of non-whitespace characters at the start of `s`. */
  function WordLength(s: string): (n: nat)
    ensures n <= |s|
    ensures forall i :: 0 <= i < n ==> !IsSpace(s[i])
    ensures n < |s| ==> IsSpace(s[n])
  {
    if s == [] || IsSpace(s[0]) then 0 else 1 + WordLength(s[1..])
  }

  /** Python's `s.split()` with no separator: the maximal runs of
      non-whitespace characters, in order. */
  function SplitWords(s: string): (words: seq<string>)
    decreases |s|
  {
    var t := TrimStart(s);
    if t == [] then []
    else
      var n := WordLength(t);
      [t[..n]] + SplitWords(t[n..])
  }

  predicate NoSpace(s: string) { forall i :: 0 <= i < |s| ==> !IsSpace(s[i]) }

  lemma WordLengthOf(a: string, rest: string)
    requires NoSpace(a)
    requires rest == [] || IsSpace(rest[0])
    ensures WordLength(a + rest) == |a|
  {
    var n := WordLength(a + rest);
    assert forall i :: 0 <= i < |a| ==> (a + rest)[i] == a[i];
    assert rest != [] ==> (a + rest)[|a|] == rest[0];
  }

  /** A leading word followed by whitespace (or nothing) is the first word. */
  lemma SplitWordsCons(a: string, rest: string)
    requires a != [] && NoSpace(a)
    requires rest == [] || IsSpace(rest[0])
    ensures SplitWords(a + rest) == [a] + SplitWords(rest)
  {
    var s := a + rest;
    assert s[0] == a[0];
    assert TrimStart(s) == s;
    WordLengthOf(a, rest);
    assert s[..|a|] == a;
    assert s[|a|..] == rest;
  }

  /** A word followed by one space and more text comes first. */
  lemma SplitWordsSpaced(a: string, rest: string)
    requires a != [] && NoSpace(a)
    ensures SplitWords(a + (" " + rest)) == [a] + SplitWords(rest)
  {
    SplitWordsCons(a, [' '] + rest);
    SplitWordsSkip(' ', rest);
  }

  lemma CommaSpace(a: string, t: string)
    ensures a + (", " + t) == (a + ",") + (" " + t)
  {
  }

  /** A word ending in a comma followed by one space and more text comes first. */
  lemma SplitWordsComma(a: string, t: string)
    requires NoSpace(a + ",")
    ensures SplitWords(a + (", " + t)) == [a + ","] + SplitWords(t)
  {
    CommaSpace(a, t);
    SplitWordsSpaced(a + ",", t);
  }

  /** A text with no whitespace in it is one word. */
  lemma SplitWordsOne(d: string)
    requires d != [] && NoSpace(d)
    ensures SplitWords(d) == [d]
  {
    assert d == d + [];
    SplitWordsCons(d, []);
  }

  lemma DropHead<T>(x: T, w: seq<T>)
    ensures ([x] + w)[1..] == w
  {
  }

  /** Leading whitespace does not change the words. */
  lemma SplitWordsSkip(c: char, rest: string)
    requires IsSpace(c)
    ensures SplitWords([c] + rest) == SplitWords(rest)
  {
    assert ([c] + rest)[1..] == rest;
    assert TrimStart([c] + rest) == TrimStart(rest);
  }
}

=== FILE: Wrappers.dfy ===
/** The optional value used where the modelled code either finds something or
    falls back (a regex that does not match, a parse that raises). */
module Wrappers {
  datatype Option<+T> = None | Some(value: T)
}
